=== FILE: README.md ===
# Booking quote calculator

A Dafny model of the booking quote calculator of the booking platform:
`BookingRepository::calculate`, its worker `prepareCalculate`, and
`userMemberShipCalculate`. Given a start time and an ordered list of
requested services, the calculator does the following:

- It lays the services out back to back, each taking its interval plus pause.
- It prices each item: the catalog total, or a price tier adjusted by the
  first matching time-of-day ("smart") rule. The tier price is floored at 0
  and converted at the currency rate. The service fee and the extras are
  added.
- It zeroes an item's price fields when the user's membership covers the
  service.
- It records availability errors when the master is closed or the slot lies
  inside the start day's disabled span.
- It settles a gift card over the items, cheapest first, with a carry-over.
- It then applies a coupon and floors the total at 0.

Every exception of `prepareCalculate` becomes a failed answer.

Layout:

- `Types.dfy` (`BookingTypes`): catalog rows, request items, price tiers and
  rules, memberships, availability reports, quote items. Times are whole
  minutes: `DayOf` is the `Y-m-d` part and `MinuteOfDay` the `H:i` part.
- `Pricing.dfy`: the currency rate, the service fee, the extras, smart-rule
  selection and adjustment, and the priced item.
- `MemberShips.dfy`: membership coverage, and `UserMemberShipCalculate`,
  which rewrites one key of the item array in place.
- `Availability.dfy`: the errors recorded from a `MasterRepository::times`
  report.
- `Settlement.dfy`: the visit order (a stable sort of the keys by total) and
  the settlement loop as a fold (`Visit`, `SettleUpTo`), with its
  invariants.
- `Quote.dfy`: the whole calculation.
  - `QuoteOf` specifies it.
  - `Calculate` implements it imperatively over an `array<Item>`. Its first
    loop (`ChainItems`) fills keys in turn. Its second loop (`SettleItems`)
    rewrites the array and updates the sums and the gift share.
  - Each loop is proved equal to its specification function.
- `QuoteProperties.dfy`: what a quote promises, stated on `QuoteOf`.

The model follows the code in these places:

- **Pairing by position.** Catalog rows, in the order the `whereIn` query
  returns them, are paired with request items by position
  (`$data['data'][$key]`), not by id.
- **Catalog total not converted.** Without a `price_id`, the stored catalog
  `total_price` is used without the rate.
- **Availability day.** The availability report is read at the request's
  start day for every item, not at each item's own start day.
- **Gift carry can overspend.** The gift carry `giftPrice += giftPrice -
  total` is kept. It can hand out more than the card is worth
  (`Settlement.GiftCarryOverspends`), so the model asserts no conservation.
- **Aggregate kept after partial deductions.** The running aggregate is only
  lowered in the full-coverage branch. Partial deductions leave it as it was
  (`Settlement.PartialGiftKeepsAggregate`).

## Model

| member | source | states |
|---|---|---|
| Pricing.Rate | app/Repositories/BookingRepository/BookingRepository.php:145 | the currency's rate, or 1 when the currency is unknown or its rate is 0; never 0 |
| Pricing.ServiceFee | app/Repositories/BookingRepository/BookingRepository.php:146-147 | the fee is 0 for a missing or non-positive setting and never negative at a non-negative rate |
| Pricing.ExtraPrice | app/Repositories/BookingRepository/BookingRepository.php:212-223 | the extras' converted sum: 0 with no extras, not negative for non-negative prices and rate |
| Pricing.Matches | app/Repositories/BookingRepository/BookingRepository.php:240 | a rule contains a slot when the slot's start time of day is not before the rule's `from` and its end time of day not after its `to`; its use is stated by Pricing.FirstMatch |
| Pricing.FirstMatch | app/Repositories/BookingRepository/BookingRepository.php:239-241 | None exactly when no rule contains the slot's times of day; otherwise the index of a containing rule with no containing rule before it |
| Pricing.Adjustment | app/Repositories/BookingRepository/BookingRepository.php:245-249 | a percent rule moves the price by at least price/100*value and never by a negative amount; a fixed rule moves it by its value |
| Pricing.Adjusted | app/Repositories/BookingRepository/BookingRepository.php:251-253 | an Up rule adds the adjustment, any other type subtracts it |
| Pricing.SmartPrice | app/Repositories/BookingRepository/BookingRepository.php:229-258 | a tier that was not found prices at 0; at a non-negative rate the price is never negative |
| Pricing.SmartPriceNoRule | app/Repositories/BookingRepository/BookingRepository.php:239-257 | with no matching rule the tier price is only floored at 0 and converted |
| Pricing.SmartPriceFirstRuleWins | app/Repositories/BookingRepository/BookingRepository.php:239-257 | when several rules match, the first in stored order alone decides the price |
| Pricing.SmartPricePercentDirection | app/Repositories/BookingRepository/BookingRepository.php:247-257 | a percent Up rule never lowers the converted price below the unadjusted one; a Down rule never raises it |
| Pricing.BasePrice | app/Repositories/BookingRepository/BookingRepository.php:227-258 | without a price_id the catalog total as stored; with one, a price that is not negative at a non-negative rate |
| Pricing.PricedItem | app/Repositories/BookingRepository/BookingRepository.php:261-276 | the slot lasts interval + pause; total = base + fee + extras; price, discount and commission are the catalog's converted at the rate; no gift, membership or errors yet |
| Pricing.PricedItemTotalBounds | app/Repositories/BookingRepository/BookingRepository.php:223-261 | at a non-negative rate with non-negative extras, fee and extras are not negative and a tier-priced total is at least fee + extras |
| MemberShips.Covers | app/Repositories/BookingRepository/BookingRepository.php:426-428 | the membership covers the service and is unlimited, or limited with a remainder above 0; its use is stated by MemberShips.WithMemberShip and QuoteProperties.QuoteMemberShip |
| MemberShips.Zeroed | app/Repositories/BookingRepository/BookingRepository.php:430-436 | every price field is 0 and the membership id is recorded; slot, gift part and errors are kept |
| MemberShips.WithMemberShip | app/Repositories/BookingRepository/BookingRepository.php:426-438 | a covering membership (service covered; unlimited, or limited with sessions left) zeroes the item; otherwise the item is unchanged |
| MemberShips.MemberShipPrecedence | app/Repositories/BookingRepository/BookingRepository.php:426-438 | a covered item costs 0 in all six price fields (price, discount, service fee, commission fee, extras, total) whatever it was priced at, records the membership id, and keeps its slot |
| MemberShips.UserMemberShipCalculate | app/Repositories/BookingRepository/BookingRepository.php:402-441 | only `items[key]` may change, and it becomes the item as the membership leaves it; the membership is returned |
| Availability.MinOf | app/Repositories/BookingRepository/BookingRepository.php:306 | the least element of a non-empty list, and one of its elements |
| Availability.MaxOf | app/Repositories/BookingRepository/BookingRepository.php:307 | the greatest element of a non-empty list, and one of its elements |
| Availability.DayAt | app/Repositories/BookingRepository/BookingRepository.php:293-294 | a day missing from the report is open with no disabled times |
| Availability.InsideDisabledSpan | app/Repositories/BookingRepository/BookingRepository.php:300-309 | the slot lies between the least and the greatest disabled time of the start day, which has some; its use is stated by Availability.AvailabilityErrors |
| Availability.AvailabilityErrors | app/Repositories/BookingRepository/BookingRepository.php:280-319 | MasterClosed iff the start day or the end day is closed; AlreadyBooked iff the slot lies within the start day's disabled span; Unexpected iff the report threw; no errors iff none of these |
| Settlement.Insert | app/Repositories/BookingRepository/BookingRepository.php:336 | the key is added once and nothing else changes in the multiset of keys |
| Settlement.InsertSorted | app/Repositories/BookingRepository/BookingRepository.php:336 | inserting a key larger than all placed keys keeps the order by (total, key) |
| Settlement.SortKeys | app/Repositories/BookingRepository/BookingRepository.php:336 | the visit order is a permutation of the keys, ascending by total, equal totals in key order |
| Settlement.SortKeysIsPermutation | app/Repositories/BookingRepository/BookingRepository.php:336 | the visit order holds every key exactly once |
| Settlement.SumAtPermutation | app/Repositories/BookingRepository/BookingRepository.php:338-341 | summing a column over any permutation of the keys gives the same sum |
| Settlement.Visit | app/Repositories/BookingRepository/BookingRepository.php:338-369 | one pass of the settlement loop keeps the number of items; what it does to the sums, the items and the aggregate is stated by VisitAdds, SettleKeepsItems, SettleKeepsZero, SettleItemBounds, SettleBelowCoverage and FullCoverageVisit |
| Settlement.SettleUpTo | app/Repositories/BookingRepository/BookingRepository.php:336-371 | the second loop as a fold of Visit over the first i keys of the visit order; what it leaves is stated by SettleKeepsItems, SettleStatus, SettleSums, SettleAggregate and the SettleAll lemmas (SettleAllStatus, SettleAllSums, SettleAllAggregate, SettleAllCovered) |
| Settlement.SettleKeepsItems | app/Repositories/BookingRepository/BookingRepository.php:347-369 | settlement writes each item back under its own key and changes only its total and gift part |
| Settlement.SettleStatus | app/Repositories/BookingRepository/BookingRepository.php:343-345 | the status is still true exactly when no visited item has errors |
| Settlement.SettleSums | app/Repositories/BookingRepository/BookingRepository.php:338-341 | each of the four sums is its start value plus the field summed over the visited keys |
| Settlement.VisitAdds | app/Repositories/BookingRepository/BookingRepository.php:338-341 | one visit adds the item's field to each of the four sums |
| Settlement.SettleAggregate | app/Repositories/BookingRepository/BookingRepository.php:351-369 | the running aggregate is either its start value or 0 |
| Settlement.SettleBelowCoverage | app/Repositories/BookingRepository/BookingRepository.php:351-355 | a card worth less than the starting aggregate never covers it: the aggregate keeps its start value |
| Settlement.CoverReachesZero | app/Repositories/BookingRepository/BookingRepository.php:347-355 | with a card worth at least the starting aggregate, the aggregate is 0 once a key with a non-zero total was visited; until then items and aggregate are unchanged and every visited total was 0 |
| Settlement.SettleAllAggregate | app/Repositories/BookingRepository/BookingRepository.php:326-371 | after the whole loop the aggregate is 0 when the card is worth at least the sum of totals, and that sum otherwise |
| Settlement.SettleKeepsZero | app/Repositories/BookingRepository/BookingRepository.php:347-349 | an item whose total was 0 before settlement comes out exactly as it went in |
| Settlement.SettleItemBounds | app/Repositories/BookingRepository/BookingRepository.php:357-367 | an item with a non-negative total before settlement ends with a total between 0 and that value |
| Settlement.PartialGiftKeepsAggregate | app/Repositories/BookingRepository/BookingRepository.php:357-367 | two items of 100 and a card of 150: both keep 25 and get 75 of gift, yet the aggregate stays 200 |
| Settlement.GiftCarryOverspends | app/Repositories/BookingRepository/BookingRepository.php:361-364 | items of 10, 100 and 100 and a card of 150 receive 10, 90 and 90: 190 out of 150 |
| Settlement.FullCoverageVisit | app/Repositories/BookingRepository/BookingRepository.php:347-355 | with a non-negative card covering the aggregate, a visit zeroes its item and leaves the others alone; it zeroes the aggregate when the item's total was not 0 (a zero item is skipped) or the aggregate already was 0, and the card still covers the aggregate afterwards |
| Settlement.FullCoverageSticks | app/Repositories/BookingRepository/BookingRepository.php:347-355 | once a non-negative card covers the aggregate, every later visited item ends at 0, unvisited ones are untouched, and the aggregate is 0 if any of them was not |
| Settlement.CoverageStep | app/Repositories/BookingRepository/BookingRepository.php:347-355 | one more visit under a non-negative covering card keeps those three facts |
| Settlement.SettleAllStatus | app/Repositories/BookingRepository/BookingRepository.php:343-345 | after the whole loop the status is true exactly when no item has errors |
| Settlement.SettleAllSums | app/Repositories/BookingRepository/BookingRepository.php:338-341 | after the whole loop each of the four sums is the column's sum over the settled items |
| Settlement.SettleAllCovered | app/Repositories/BookingRepository/BookingRepository.php:351-355 | a non-negative card worth at least the starting aggregate leaves every item and the aggregate at 0 |
| Quote.FirstFailure | app/Repositories/BookingRepository/BookingRepository.php:187-208 | None exactly when every remaining row has a request item and a non-negative duration; BadDuration only for a negative duration, MissingItem only when the request has fewer items |
| Quote.GiftCartPrice | app/Repositories/BookingRepository/BookingRepository.php:171-185 | the found card's price at the rate, 0 when the card is not found or none is named; its failure case is stated by QuoteProperties.QuoteFailures |
| Quote.BuildItem | app/Repositories/BookingRepository/BookingRepository.php:206-319 | the item starts where it is placed and ends interval + pause later; what it carries is stated by Quote.BuildItemParts |
| Quote.BuildItemParts | app/Repositories/BookingRepository/BookingRepository.php:206-319 | the built item has its row's id and the availability errors of its own slot; a covering membership leaves all six price fields 0 with the membership id, otherwise the item has the priced item's six price fields and no membership |
| Quote.Chain | app/Repositories/BookingRepository/BookingRepository.php:187-206 | a chain of n keys has n items; its slots are stated by ChainPrefix, ChainItem, ChainStep and QuoteProperties.ChainSlots |
| Quote.ItemAt | app/Repositories/BookingRepository/BookingRepository.php:190-206 | each item lasts its row's interval + pause |
| Quote.ChainPrefix | app/Repositories/BookingRepository/BookingRepository.php:187-206 | a longer chain keeps every item of a shorter one |
| Quote.ChainItem | app/Repositories/BookingRepository/BookingRepository.php:187-206 | item k of every chain that reaches k is the item built for key k |
| Quote.ChainStep | app/Repositories/BookingRepository/BookingRepository.php:192-206 | the chain grows by the item built where the chain so far ends, or at the start date |
| Quote.InitialState | app/Repositories/BookingRepository/BookingRepository.php:323-334 | sums 0, status true, aggregate the sum of totals, share the card over the item count when card and aggregate are positive |
| Quote.PastGuardAsWritten | app/Repositories/BookingRepository/BookingRepository.php:155 | the guard as written never rejects: a `DateTime` compared with a string ranks above it, and the end date equals the start date |
| Quote.Admitted | app/Repositories/BookingRepository/BookingRepository.php:171-208 | the gift-card check passes and the chaining loop meets no failure; stated against the quote by QuoteProperties.QuoteFailures and PastStartSlipsThrough |
| Quote.Accepted | app/Repositories/BookingRepository/BookingRepository.php:155-208 | the start date is not before now and the request is admitted: exactly the requests that are quoted, by QuoteProperties.QuoteFailures |
| Quote.ChainOf | app/Repositories/BookingRepository/BookingRepository.php:187-206 | one item per catalog row; its slots are stated by QuoteProperties.ChainSlots |
| Quote.Settled | app/Repositories/BookingRepository/BookingRepository.php:326-371 | one settled item per catalog row; its items, status, sums and aggregate are stated by QuoteProperties.SettledItems, SettledSchedule, SettledFieldSum and SettledAggregate |
| Quote.Quoted | app/Repositories/BookingRepository/BookingRepository.php:323-392 | the answer from the settlement state and the coupon; stated by QuoteProperties.QuoteIsSettled, QuoteSums, QuoteStatus and QuoteTotal |
| Quote.QuoteAsWritten | app/Repositories/BookingRepository/BookingRepository.php:125-392 | `calculate` with the start-date guard as written; stated by QuoteProperties.PastStartSlipsThrough and GuardAgrees |
| Quote.QuoteOf | app/Repositories/BookingRepository/BookingRepository.php:125-157 | the calculation with the intended start-date guard in front of QuoteAsWritten; stated by QuoteProperties.QuoteFailures, GuardAgrees, QuoteIsSettled and the other QuoteProperties lemmas, and implemented by Quote.Calculate |
| Quote.FillItem | app/Repositories/BookingRepository/BookingRepository.php:206-319 | only `items[key]` changes, and it becomes the priced, membership-offset item with its availability errors |
| Quote.ChainNext | app/Repositories/BookingRepository/BookingRepository.php:190-208 | one pass of the first loop: the failure the source throws at this key, or the chain one key longer with the slot's end |
| Quote.ExtendChain | app/Repositories/BookingRepository/BookingRepository.php:206-319 | filling a key after a filled prefix grows the prefix to the chain one key longer |
| Quote.ChainItems | app/Repositories/BookingRepository/BookingRepository.php:187-321 | the first loop stops with the first failure and otherwise leaves the whole chain in the array and the last slot's end in `endDate` |
| Quote.VisitItem | app/Repositories/BookingRepository/BookingRepository.php:336-371 | one pass of the second loop on the array and the locals is one `Visit` of the state |
| Quote.SettleItems | app/Repositories/BookingRepository/BookingRepository.php:336-371 | the second loop leaves the array and the locals as the fold over the visit order |
| Quote.SettleChain | app/Repositories/BookingRepository/BookingRepository.php:323-371 | sorting the keys by total and running the second loop gives the settlement state |
| Quote.SettleQuote | app/Repositories/BookingRepository/BookingRepository.php:323-392 | settlement, the coupon and the answer give the quote of the accepted request |
| Quote.Calculate | app/Repositories/BookingRepository/BookingRepository.php:125-135 | the imperative calculation returns exactly the specified quote, failures included |
| QuoteProperties.ChainSlots | app/Repositories/BookingRepository/BookingRepository.php:190-206 | the first slot starts at the start date, each later slot starts where the previous one ends, and each lasts interval + pause |
| QuoteProperties.QuoteFailures | app/Repositories/BookingRepository/BookingRepository.php:125-208 | a past start date, or a named gift card that is missing or worth 0, answers with its failure; past those checks, a negative duration on the first row fails with BadDuration, and more rows than request items, with every duration non-negative, fails with MissingItem; a quote is computed exactly for accepted requests |
| QuoteProperties.PastStartSlipsThrough | app/Repositories/BookingRepository/BookingRepository.php:155-157 | a request with a start date before now that passes every later check is quoted by the code as written, while the intended guard answers PastStartDate |
| QuoteProperties.GuardAgrees | app/Repositories/BookingRepository/BookingRepository.php:155-157 | for a start date not before now, the intended guard and the written one give the same answer |
| QuoteProperties.QuoteIsSettled | app/Repositories/BookingRepository/BookingRepository.php:373-392 | the answer carries the settled items, status and sums, the coupon step on the aggregate, and the last slot's end |
| QuoteProperties.SettledItems | app/Repositories/BookingRepository/BookingRepository.php:336-371 | the settled items are the chained ones but for their totals and gift parts |
| QuoteProperties.QuoteSchedule | app/Repositories/BookingRepository/BookingRepository.php:187-206 | the quote's items are back to back from the start date, each lasting interval + pause, and the end date is the last item's end |
| QuoteProperties.SettledSchedule | app/Repositories/BookingRepository/BookingRepository.php:336-371 | settlement keeps the chained slots |
| QuoteProperties.QuoteStatus | app/Repositories/BookingRepository/BookingRepository.php:343-345 | the quote's status is true exactly when no item has errors |
| QuoteProperties.SettledFieldSum | app/Repositories/BookingRepository/BookingRepository.php:338-341 | each settled sum is the column's sum over the settled items |
| QuoteProperties.QuoteSums | app/Repositories/BookingRepository/BookingRepository.php:384-389 | price, total discount, total service fee and total commission fee are the plain sums over the quote's items |
| QuoteProperties.QuoteMemberShip | app/Repositories/BookingRepository/BookingRepository.php:347-349 | an item covered by the membership reaches the quote with every price field 0 and the membership id recorded |
| QuoteProperties.ChainItemParts | app/Repositories/BookingRepository/BookingRepository.php:187-206 | chained item k is the item built for key k at its own start |
| QuoteProperties.QuoteErrors | app/Repositories/BookingRepository/BookingRepository.php:280-319 | every quoted item carries its row's id and the availability errors `times` reports for its own slot, judged against the start day |
| QuoteProperties.QuoteUncovered | app/Repositories/BookingRepository/BookingRepository.php:261-276 | an item the membership does not cover keeps the priced item's price, discount, fees and extras, records no membership, and enters settlement with the priced total |
| QuoteProperties.QuoteItemCredit | app/Repositories/BookingRepository/BookingRepository.php:357-367 | an item with a non-negative chained total is quoted with a total between 0 and that chained total: no decrement exceeds the item |
| QuoteProperties.SettledItemCredit | app/Repositories/BookingRepository/BookingRepository.php:357-367 | the settled total of such an item lies between 0 and its chained total |
| QuoteProperties.QuoteCredit | app/Repositories/BookingRepository/BookingRepository.php:357-367 | with every chained total non-negative, every quoted total lies between 0 and its chained total |
| QuoteProperties.SettledAggregate | app/Repositories/BookingRepository/BookingRepository.php:326-371 | the settled aggregate is 0 when the card is worth at least the sum of the chained totals, and that sum otherwise |
| QuoteProperties.QuoteTotal | app/Repositories/BookingRepository/BookingRepository.php:373-385 | the total is not negative and is the aggregate less the coupon, floored at 0, the coupon asked for only when given and the aggregate is positive; the aggregate is the sum of the chained totals, or 0 (and then coupon and total are 0) when the card is worth at least that sum |
| QuoteProperties.QuoteGiftCoversAll | app/Repositories/BookingRepository/BookingRepository.php:351-355 | a non-negative card worth at least the aggregate settles every item and the quote to 0, with no coupon |

## Findings

| source | as written | input that shows it | evidently intended | confidence | as-written member | corrected member |
|---|---|---|---|---|---|---|
| app/Repositories/BookingRepository/BookingRepository.php:155 | the start `DateTime` is compared with `<` to the string of `now()->format(...)`. PHP cannot cast a `DateTime` to a string, so it ranks the object above the string and the guard is false for every date. The other half compares two equal dates. | `start_date` one day before now, no gift card, a valid list of services: the request is quoted instead of refused | a start date before now is refused with `ERROR_509` | medium: follows PHP's object-to-string comparison rules; not executed | Quote.QuoteAsWritten, exhibited by QuoteProperties.PastStartSlipsThrough | QuoteProperties.QuoteFailures |

## Left out

- Database and Eloquent lookups are inputs (`Env`):
  - the currency rate, the `booking_service_fee` setting and the catalog rows;
  - the tier rows, the extras' prices, the gift card and the membership.
  - Expiry filters, user filters and translation eager-loads happen inside those lookups.
- The membership is the lookup's result, passed in. As written the lookup
  filters on `items[key]['user_member_ship_id']`. That field is never set at
  this point, so in the source the lookup finds nothing. The model keeps
  every membership outcome open.
- `MasterRepository::times` is the function parameter `TimesOracle` and
  `OrderHelper::couponPrice` the function parameter `CouponPricer`. Nothing
  is assumed about either. MasterRepository and OrderHelper are not part of
  this model.
- Presentation is left out: `ServiceMasterResource`,
  `ServiceExtraResource`, the `note`/`data`/`gender`/`notes` pass-through
  fields, and the echoed `user_gift_cart_id`.
- Messages are left out. Failures and item errors are codes:
  - an exception from the availability report is the single code `Unexpected`, not its message text;
  - the `ALREADY_BOOKED` message's min/max parameters are not kept.
- Dates are whole minutes on one scale. `DateTime` parsing, formatting,
  time zones and seconds are not modelled.
- The `days` difference is left out because it is computed and never used.
- Money is exact `real`; PHP floating-point rounding is not modelled.
- A negative gift card amount is admitted, as `empty()` refuses only 0 and a
  missing card. The full-coverage lemmas (FullCoverageVisit,
  FullCoverageSticks, CoverageStep, SettleAllCovered, QuoteGiftCoversAll)
  are stated for a card that is not negative. With a negative card, an item
  may keep its total even though the card reaches the aggregate. The
  aggregate itself is still exact for every card (SettleAllAggregate).
- The `ERROR_400` return after a failed parse of the previous item's end
  date is left out. That end date is always well formed, so the branch never
  runs.
- A request key missing from `data`, and an interval plus pause below 0,
  are failures of their own (`MissingItem`, `BadDuration`). The source
  throws there, and `calculate` turns that into a failed answer whose
  message text is not modelled.
- Quote.QuoteOf puts the intended start-date guard in front of
  Quote.QuoteAsWritten, which evaluates the guard as written (see Findings).
  `Calculate` is proved against QuoteOf.

=== FILE: Availability.dfy ===
/** Availability errors of one item, from what `MasterRepository::times`
    reports about the master around the item's slot. */
module Availability {
  import opened BookingTypes

  /** PHP `min` of a non-empty list. */
  function MinOf(xs: seq<int>): (m: int)
    requires |xs| > 0
    ensures m in xs
    ensures forall i :: 0 <= i < |xs| ==> m <= xs[i]
  {
    if |xs| == 1 then xs[0]
    else var rest := MinOf(xs[1..]); if xs[0] <= rest then xs[0] else rest
  }

  /** PHP `max` of a non-empty list. */
  function MaxOf(xs: seq<int>): (m: int)
    requires |xs| > 0
    ensures m in xs
    ensures forall i :: 0 <= i < |xs| ==> xs[i] <= m
  {
    if |xs| == 1 then xs[0]
    else var rest := MaxOf(xs[1..]); if xs[0] >= rest then xs[0] else rest
  }

  /** The report for a day; a day the report leaves out is open with
      nothing disabled. */
  function DayAt(days: map<int, DayTimes>, day: int): (d: DayTimes)
    ensures day !in days ==> !d.closed && d.disabledTimes == []
  {
    if day in days then days[day] else DayTimes(false, [])
  }

  /** The slot [from, to] (times of day) lies inside the span from the
      earliest to the latest disabled time of the day. */
  predicate InsideDisabledSpan(d: DayTimes, from: int, to: int)
  {
    |d.disabledTimes| > 0 && MinOf(d.disabledTimes) <= from && to <= MaxOf(d.disabledTimes)
  }

  /** The errors recorded on an item whose slot has times of day `from` and
      `to` and ends on day `endDay`; `startDay` is the day of the request's
      start date, consulted for every item. An exception from the report
      becomes an error of its own. */
  function AvailabilityErrors(times: Times, startDay: int, endDay: int, from: int, to: int): (errs: seq<ItemError>)
    ensures MasterClosed in errs <==>
              times.Times? && (DayAt(times.days, startDay).closed || DayAt(times.days, endDay).closed)
    ensures AlreadyBooked in errs <==>
              times.Times? && InsideDisabledSpan(DayAt(times.days, startDay), from, to)
    ensures Unexpected in errs <==> times.TimesThrew?
    ensures errs == [] <==>
              times.Times? && !DayAt(times.days, startDay).closed && !DayAt(times.days, endDay).closed &&
              !InsideDisabledSpan(DayAt(times.days, startDay), from, to)
  {
    match times
    case TimesThrew => [Unexpected]
    case Times(days) =>
      var startTimes := DayAt(days, startDay);
      var endTimes := DayAt(days, endDay);
      var closed := if startTimes.closed || endTimes.closed then [MasterClosed] else [];
      var disabled := startTimes.disabledTimes;
      if |disabled| == 0 then closed
      else if MinOf(disabled) <= from && to <= MaxOf(disabled) then closed + [AlreadyBooked]
      else closed
  }
}

=== FILE: MemberShips.dfy ===
/** Membership offsetting: an item whose service a usable membership covers
    costs nothing. */
module MemberShips {
  import opened BookingTypes

  /** The membership covers the service and still has sessions to give:
      it is unlimited, or limited with a remainder above 0. */
  predicate Covers(m: UserMemberShip, serviceId: int)
  {
    serviceId in m.services &&
    ((m.sessions == Limited && m.remainder > 0) || m.sessions == Unlimited)
  }

  /** The item with every price field set to 0 and the membership recorded. */
  function Zeroed(item: Item, memberShipId: int): (r: Item)
    ensures r.price == 0.0 && r.discount == 0.0 && r.serviceFee == 0.0
    ensures r.commissionFee == 0.0 && r.extraPrice == 0.0 && r.totalPrice == 0.0
    ensures r.userMemberShipId == Some(memberShipId)
    ensures r.serviceMasterId == item.serviceMasterId && r.start == item.start && r.end == item.end
    ensures r.giftCartPrice == item.giftCartPrice && r.errors == item.errors
  {
    item.(userMemberShipId := Some(memberShipId), price := 0.0, discount := 0.0,
          serviceFee := 0.0, commissionFee := 0.0, extraPrice := 0.0, totalPrice := 0.0)
  }

  /** The item as the membership leaves it. */
  function WithMemberShip(membership: Option<UserMemberShip>, serviceId: int, item: Item): (r: Item)
    ensures membership.Some? && Covers(membership.value, serviceId) ==> r == Zeroed(item, membership.value.id)
    ensures !(membership.Some? && Covers(membership.value, serviceId)) ==> r == item
  {
    if membership.Some? && Covers(membership.value, serviceId) then Zeroed(item, membership.value.id) else item
  }

  /** Whatever membership an item starts with, it keeps its slot and its
      errors, and if the membership applies, it costs nothing. */
  lemma MemberShipPrecedence(membership: Option<UserMemberShip>, serviceId: int, item: Item)
    requires membership.Some? && serviceId in membership.value.services
    requires membership.value.sessions == Unlimited || membership.value.remainder > 0
    ensures var r := WithMemberShip(membership, serviceId, item);
            r.totalPrice == 0.0 && r.price == 0.0 && r.discount == 0.0 && r.extraPrice == 0.0 &&
            r.serviceFee == 0.0 && r.commissionFee == 0.0 &&
            r.userMemberShipId == Some(membership.value.id) && r.start == item.start && r.end == item.end
  {
    assert Covers(membership.value, serviceId);
  }

  /** `userMemberShipCalculate`: the membership found for the user (passed
      in) is applied to the item under `key` of `items`; no other key is
      touched. The membership is returned whether or not it applied. */
  method UserMemberShipCalculate(sm: ServiceMaster, membership: Option<UserMemberShip>, key: nat, items: array<Item>)
    returns (found: Option<UserMemberShip>)
    requires key < items.Length
    modifies items
    ensures found == membership
    ensures items[..] == old(items[..])[key := WithMemberShip(membership, sm.serviceId, old(items[key]))]
    ensures forall k :: 0 <= k < items.Length && k != key ==> items[k] == old(items[k])
  {
    found := membership;
    if membership.None? {
      return;
    }
    var m := membership.value;
    var isLimited := m.sessions == Limited && m.remainder > 0;
    if sm.serviceId in m.services && (isLimited || m.sessions == Unlimited) {
      items[key] := Zeroed(items[key], m.id);
    }
  }
}

=== FILE: Pricing.dfy ===
/** Per-item pricing: the currency rate, the service fee, the extras, the
    smart (time-of-day) adjustment of a tier price, and the item total. */
module Pricing {
  import opened BookingTypes

  /** The currency rate; an unknown currency or a rate of 0 falls back to 1. */
  function Rate(currencyRate: Option<real>): (r: real)
    ensures r != 0.0
    ensures currencyRate.Some? && currencyRate.value != 0.0 ==> r == currencyRate.value
    ensures currencyRate.None? ==> r == 1.0
    ensures currencyRate.Some? && currencyRate.value == 0.0 ==> r == 1.0
  {
    if currencyRate.Some? && currencyRate.value != 0.0 then currencyRate.value else 1.0
  }

  /** The `booking_service_fee` setting, floored at 0 (a missing setting
      counts as 0) and converted at the rate. */
  function ServiceFee(setting: Option<real>, rate: real): (fee: real)
    ensures rate >= 0.0 ==> fee >= 0.0
    ensures setting.None? ==> fee == 0.0
    ensures setting.Some? && setting.value <= 0.0 ==> fee == 0.0
  {
    Max(if setting.Some? then setting.value else 0.0, 0.0) * rate
  }

  /** The sum of the extras' prices, converted at the rate. */
  function ExtraPrice(extras: seq<real>, rate: real): (e: real)
    ensures rate >= 0.0 && (forall i :: 0 <= i < |extras| ==> extras[i] >= 0.0) ==> e >= 0.0
    ensures extras == [] ==> e == 0.0
  {
    Sum(extras) * rate
  }

  /** A rule applies when the slot's start time of day is not before its
      `from` and the slot's end time of day is not after its `to`. */
  predicate Matches(rule: SmartRule, from: int, to: int)
  {
    rule.from <= from && to <= rule.to
  }

  /** The index of the first rule, in stored order, that applies. */
  function FirstMatch(rules: seq<SmartRule>, from: int, to: int): (r: Option<nat>)
    ensures r.None? <==> forall i :: 0 <= i < |rules| ==> !Matches(rules[i], from, to)
    ensures r.Some? ==> r.value < |rules| && Matches(rules[r.value], from, to)
    ensures r.Some? ==> forall i :: 0 <= i < r.value ==> !Matches(rules[i], from, to)
  {
    if rules == [] then None
    else if Matches(rules[0], from, to) then Some(0)
    else match FirstMatch(rules[1..], from, to)
      case None => None
      case Some(i) => Some(i + 1)
  }

  /** The amount a rule moves the price by: a percentage of the price,
      never negative, or the rule's value as it stands. */
  function Adjustment(rule: SmartRule, price: real): (a: real)
    ensures rule.valueType == Percent ==> a >= 0.0 && a >= price / 100.0 * rule.value
    ensures rule.valueType == Fixed ==> a == rule.value
  {
    if rule.valueType == Percent then Max(price / 100.0 * rule.value, 0.0) else rule.value
  }

  /** The price after a rule: an `Up` rule adds the adjustment, any other
      type subtracts it. */
  function Adjusted(rule: SmartRule, price: real): (p: real)
    ensures rule.smartType == Up ==> p - price == Adjustment(rule, price)
    ensures rule.smartType == Down ==> price - p == Adjustment(rule, price)
  {
    if rule.smartType == Up then price + Adjustment(rule, price) else price - Adjustment(rule, price)
  }

  /** The price of an item that names a price tier, for a slot whose times
      of day are `from` and `to`: the first applying rule adjusts the tier
      price, the result is floored at 0 and converted at the rate. A tier
      that was not found prices the item at 0. */
  function SmartPrice(tier: Option<PriceTier>, from: int, to: int, rate: real): (p: real)
    ensures rate >= 0.0 ==> p >= 0.0
    ensures tier.None? ==> p == 0.0
  {
    match tier
    case None => 0.0
    case Some(t) =>
      var raw := match FirstMatch(t.smart, from, to)
        case None => t.price
        case Some(i) => Adjusted(t.smart[i], t.price);
      Max(raw, 0.0) * rate
  }

  /** With no applying rule the tier price is only floored and converted. */
  lemma SmartPriceNoRule(t: PriceTier, from: int, to: int, rate: real)
    requires forall i :: 0 <= i < |t.smart| ==> !Matches(t.smart[i], from, to)
    ensures SmartPrice(Some(t), from, to, rate) == Max(t.price, 0.0) * rate
  {
  }

  /** When several rules apply, the first one in stored order wins. */
  lemma SmartPriceFirstRuleWins(t: PriceTier, i: nat, from: int, to: int, rate: real)
    requires i < |t.smart| && Matches(t.smart[i], from, to)
    requires forall j :: 0 <= j < i ==> !Matches(t.smart[j], from, to)
    ensures SmartPrice(Some(t), from, to, rate) == Max(Adjusted(t.smart[i], t.price), 0.0) * rate
  {
    assert FirstMatch(t.smart, from, to) == Some(i);
  }

  /** A percentage rule moves the converted price in its direction: `Up`
      never lowers it below the unadjusted (floored, converted) tier price,
      `Down` never raises it above. */
  lemma SmartPricePercentDirection(t: PriceTier, from: int, to: int, rate: real)
    requires rate >= 0.0
    requires FirstMatch(t.smart, from, to).Some?
    requires t.smart[FirstMatch(t.smart, from, to).value].valueType == Percent
    ensures t.smart[FirstMatch(t.smart, from, to).value].smartType == Up ==>
              SmartPrice(Some(t), from, to, rate) >= Max(t.price, 0.0) * rate
    ensures t.smart[FirstMatch(t.smart, from, to).value].smartType == Down ==>
              SmartPrice(Some(t), from, to, rate) <= Max(t.price, 0.0) * rate
  {
    var rule := t.smart[FirstMatch(t.smart, from, to).value];
    var adj := Adjusted(rule, t.price);
    if rule.smartType == Up {
      assert adj >= t.price;
      assert Max(adj, 0.0) >= Max(t.price, 0.0);
    } else {
      assert adj <= t.price;
      assert Max(adj, 0.0) <= Max(t.price, 0.0);
    }
  }

  /** The price part of an item before the fee and the extras: the catalog
      row's `total_price` as stored (not converted at the rate) when no
      `price_id` is given, otherwise the smart tier price. */
  function BasePrice(sm: ServiceMaster, choice: PriceChoice, start: int, end: int, rate: real): (p: real)
    ensures choice.NoPriceId? ==> p == sm.totalPrice
    ensures choice.PriceId? && rate >= 0.0 ==> p >= 0.0
  {
    match choice
    case NoPriceId => sm.totalPrice
    case PriceId(tier) => SmartPrice(tier, MinuteOfDay(start), MinuteOfDay(end), rate)
  }

  /** The priced item for the slot [start, start + interval + pause], before
      membership and availability are considered. */
  function PricedItem(sm: ServiceMaster, req: ItemRequest, start: int, rate: real, fee: real): (it: Item)
    ensures it.serviceMasterId == sm.id
    ensures it.start == start && it.end - it.start == sm.interval + sm.pause
    ensures it.serviceFee == fee && it.extraPrice == ExtraPrice(req.extras, rate)
    ensures it.totalPrice - it.serviceFee - it.extraPrice == BasePrice(sm, req.priceChoice, it.start, it.end, rate)
    ensures it.price == sm.price * rate && it.discount == sm.discount * rate
    ensures it.commissionFee == sm.commissionFee * rate
    ensures it.giftCartPrice.None? && it.userMemberShipId.None? && it.errors == []
  {
    var end := start + sm.interval + sm.pause;
    var extraPrice := ExtraPrice(req.extras, rate);
    var total := BasePrice(sm, req.priceChoice, start, end, rate) + fee + extraPrice;
    Item(sm.id, start, end, sm.price * rate, sm.discount * rate, fee,
         sm.commissionFee * rate, extraPrice, total, None, None, [])
  }

  /** With a non-negative rate and non-negative extras, an item that names
      a price tier has a total of at least its fee plus its extras, so at
      least 0; an item without one may go below 0 only through the stored
      catalog total. */
  lemma PricedItemTotalBounds(sm: ServiceMaster, req: ItemRequest, start: int, rate: real, setting: Option<real>)
    requires rate >= 0.0
    requires forall i :: 0 <= i < |req.extras| ==> req.extras[i] >= 0.0
    ensures var it := PricedItem(sm, req, start, rate, ServiceFee(setting, rate));
            it.serviceFee >= 0.0 && it.extraPrice >= 0.0 &&
            (req.priceChoice.PriceId? ==> it.totalPrice >= it.serviceFee + it.extraPrice >= 0.0) &&
            (sm.totalPrice >= 0.0 ==> it.totalPrice >= 0.0)
  {
  }
}

=== FILE: Quote.dfy ===
/** The booking quote: `calculate` / `prepareCalculate`. It chains the
    requested services back to back from the start date, prices each one,
    applies the membership, records availability errors, and then settles
    the gift card and the coupon over the whole chain.

    Everything the source reads from the database or from other services
    arrives as a value (`Env`) or as a function (`TimesOracle`,
    `CouponPricer`). */
module Quote {
  import opened BookingTypes
  import opened Pricing
  import opened MemberShips
  import opened Availability
  import opened Settlement

  /** What the source looks up: the clock, the currency rate, the service
      fee setting, the catalog rows as the `whereIn` query returns them, the
      gift card found for the request (its stored price), and the membership
      found for the user. */
  datatype Env = Env(
    now: int,
    currencyRate: Option<real>,
    serviceFeeSetting: Option<real>,
    catalog: seq<ServiceMaster>,
    giftCard: Option<real>,
    membership: Option<UserMemberShip>)

  /** The request: `start_date`, the `data` list, whether a
      `user_gift_cart_id` and a `coupon` are given. */
  datatype Request = Request(startDate: int, data: seq<ItemRequest>, giftCartRequested: bool, hasCoupon: bool)

  /** `MasterRepository::times(master_id, start, end, service_master_id)`. */
  type TimesOracle = (int, int, int, int) -> Times

  /** `OrderHelper::couponPrice` for the request, as a function of the
      aggregate total it is asked about. */
  type CouponPricer = real -> real

  /** Why `calculate` answers with `status = false` and a message. */
  datatype FailCode =
    | PastStartDate        // the start date is before now
    | GiftCartUnavailable  // a gift card was named but none (or one worth 0) was found
    | BadDuration          // interval + pause is negative: the interval cannot be built
    | MissingItem          // more catalog rows than request items: a `data` key is missing

  datatype Calculation =
    | Failed(code: FailCode)
    | Calculated(
        status: bool, startDate: int, endDate: int, rate: real,
        price: real, totalPrice: real, couponPrice: real,
        totalDiscount: real, totalServiceFee: real, totalCommissionFee: real,
        totalGiftCartPrice: real, items: seq<Item>)

  function Duration(sm: ServiceMaster): int
  {
    sm.interval + sm.pause
  }

  /** The first failure the chaining loop meets from key `k` on. */
  function FirstFailure(catalog: seq<ServiceMaster>, data: seq<ItemRequest>, k: nat): (r: Option<FailCode>)
    ensures r.None? <==> AllFit(catalog, data, k)
    ensures r == Some(BadDuration) ==> exists i :: k <= i < |catalog| && Duration(catalog[i]) < 0
    ensures r.None? && k < |catalog| ==> |catalog| <= |data|
    ensures r == Some(MissingItem) ==> |data| < |catalog|
    ensures r.Some? ==> r.value == BadDuration || r.value == MissingItem
    decreases |catalog| - k
  {
    if k >= |catalog| then None
    else if Duration(catalog[k]) < 0 then Some(BadDuration)
    else if k >= |data| then Some(MissingItem)
    else
      var r := FirstFailure(catalog, data, k + 1);
      AllFitFrom(catalog, data, k);
      r
  }

  /** Every catalog row from `k` on has a request item (the request has at
      least as many items as the catalog has rows) and a duration that is
      not negative. */
  predicate AllFit(catalog: seq<ServiceMaster>, data: seq<ItemRequest>, k: nat)
  {
    (k < |catalog| ==> |catalog| <= |data|) &&
    forall i :: k <= i < |catalog| ==> Duration(catalog[i]) >= 0
  }

  /** Every row from `k` on fits exactly when row `k` does and every row
      after it does. */
  lemma {:induction false} AllFitFrom(catalog: seq<ServiceMaster>, data: seq<ItemRequest>, k: nat)
    requires k < |catalog| && k < |data| && Duration(catalog[k]) >= 0
    ensures AllFit(catalog, data, k) ==> AllFit(catalog, data, k + 1)
    ensures AllFit(catalog, data, k + 1) ==> AllFit(catalog, data, k)
  {
    if AllFit(catalog, data, k + 1) {
      if k + 1 == |catalog| {
        assert |catalog| <= |data|;
      }
      forall i | k <= i < |catalog|
        ensures Duration(catalog[i]) >= 0
      {
        if i != k {
          assert k + 1 <= i < |catalog| && Duration(catalog[i]) >= 0;
        }
      }
    }
  }

  /** The gift card's amount at the rate; 0 when none is named. A named card
      that was not found counts as 0. */
  function GiftCartPrice(env: Env, req: Request, rate: real): real
  {
    if req.giftCartRequested then (if env.giftCard.Some? then env.giftCard.value else 0.0) * rate else 0.0
  }

  /** Item `key` of the chain, starting at `start`: priced, offset by the
      membership, and carrying its availability errors. */
  function BuildItem(env: Env, req: Request, times: TimesOracle, rate: real, fee: real, key: nat, start: int): (it: Item)
    requires key < |env.catalog| && key < |req.data|
    ensures it.start == start && it.end == start + Duration(env.catalog[key])
  {
    var sm := env.catalog[key];
    var priced := PricedItem(sm, req.data[key], start, rate, fee);
    var member := WithMemberShip(env.membership, sm.serviceId, priced);
    var report := times(sm.masterId, member.start, member.end, sm.id);
    member.(errors := member.errors + AvailabilityErrors(report, DayOf(req.startDate), DayOf(member.end),
                                                         MinuteOfDay(member.start), MinuteOfDay(member.end)))
  }

  /** What item `key` carries: its service's id, the availability errors
      for its slot, and either nothing to pay with the membership recorded
      (the membership covers the service) or the priced item's six prices
      and no membership. */
  lemma BuildItemParts(env: Env, req: Request, times: TimesOracle, rate: real, fee: real, key: nat, start: int)
    requires key < |env.catalog| && key < |req.data|
    ensures var sm := env.catalog[key];
            var it := BuildItem(env, req, times, rate, fee, key, start);
            it.serviceMasterId == sm.id &&
            it.errors == AvailabilityErrors(times(sm.masterId, start, it.end, sm.id), DayOf(req.startDate),
                                            DayOf(it.end), MinuteOfDay(start), MinuteOfDay(it.end))
    ensures var sm := env.catalog[key];
            var it := BuildItem(env, req, times, rate, fee, key, start);
            env.membership.Some? && Covers(env.membership.value, sm.serviceId) ==>
              it.price == 0.0 && it.discount == 0.0 && it.serviceFee == 0.0 && it.commissionFee == 0.0 &&
              it.extraPrice == 0.0 && it.totalPrice == 0.0 && it.userMemberShipId == Some(env.membership.value.id)
    ensures var sm := env.catalog[key];
            var it := BuildItem(env, req, times, rate, fee, key, start);
            var p := PricedItem(sm, req.data[key], start, rate, fee);
            !(env.membership.Some? && Covers(env.membership.value, sm.serviceId)) ==>
              it.price == p.price && it.discount == p.discount && it.serviceFee == p.serviceFee &&
              it.commissionFee == p.commissionFee && it.extraPrice == p.extraPrice &&
              it.totalPrice == p.totalPrice && it.userMemberShipId.None?
  {
  }

  /** The first `n` items: catalog row k paired with request item k. */
  function Chain(env: Env, req: Request, times: TimesOracle, rate: real, fee: real, n: nat): (items: seq<Item>)
    requires n <= |env.catalog| && n <= |req.data|
    ensures |items| == n
    decreases n, 0
  {
    if n == 0 then [] else Chain(env, req, times, rate, fee, n - 1) + [ItemAt(env, req, times, rate, fee, n - 1)]
  }

  /** Item k of the chain: built at the start date for the first key, and
      where item k - 1 ends for every later one. */
  function ItemAt(env: Env, req: Request, times: TimesOracle, rate: real, fee: real, k: nat): (it: Item)
    requires k < |env.catalog| && k < |req.data|
    ensures it.end == it.start + Duration(env.catalog[k])
    decreases k, 1
  {
    BuildItem(env, req, times, rate, fee, k,
              if k == 0 then req.startDate else Chain(env, req, times, rate, fee, k)[k - 1].end)
  }

  /** A longer chain keeps the items of a shorter one. */
  lemma {:induction false} ChainPrefix(env: Env, req: Request, times: TimesOracle, rate: real, fee: real, n: nat, m: nat, k: nat)
    requires k < m <= n <= |env.catalog| && n <= |req.data|
    ensures Chain(env, req, times, rate, fee, n)[k] == Chain(env, req, times, rate, fee, m)[k]
    decreases n
  {
    if m < n {
      ChainPrefix(env, req, times, rate, fee, n - 1, m, k);
    }
  }

  /** Item k of any chain that reaches it is the item built for key k. */
  lemma ChainItem(env: Env, req: Request, times: TimesOracle, rate: real, fee: real, n: nat, k: nat)
    requires k < n <= |env.catalog| && n <= |req.data|
    ensures Chain(env, req, times, rate, fee, n)[k] == ItemAt(env, req, times, rate, fee, k)
  {
    ChainPrefix(env, req, times, rate, fee, n, k + 1, k);
  }

  /** The chain grows by the item built where the chain so far ends. */
  lemma ChainStep(env: Env, req: Request, times: TimesOracle, rate: real, fee: real, n: nat, start: int)
    requires n < |env.catalog| && n < |req.data|
    requires n == 0 ==> start == req.startDate
    requires n > 0 ==> start == Chain(env, req, times, rate, fee, n)[n - 1].end
    ensures Chain(env, req, times, rate, fee, n + 1) ==
            Chain(env, req, times, rate, fee, n) + [BuildItem(env, req, times, rate, fee, n, start)]
  {
    assert ItemAt(env, req, times, rate, fee, n) == BuildItem(env, req, times, rate, fee, n, start);
  }

  /** The state the settlement loop starts from. */
  function InitialState(items: seq<Item>, gc: real): (s: State)
    ensures s.items == items && s.status
    ensures s.totalPrice == Sum(Column(items, TotalField))
    ensures s.price == 0.0 && s.discount == 0.0 && s.serviceFee == 0.0 && s.commissionFee == 0.0
    ensures s.giftPrice == (if gc > 0.0 && s.totalPrice > 0.0 then gc / (|items| as real) else 0.0)
  {
    var totals := Column(items, TotalField);
    SumAtRange(totals, |totals|);
    assert totals[..|totals|] == totals;
    var aggregate := SumAt(totals, Range(|items|));
    var share := if gc > 0.0 && aggregate > 0.0 then gc / (|items| as real) else 0.0;
    State(items, 0.0, 0.0, 0.0, 0.0, true, aggregate, share)
  }

  /** An operand of PHP's `<` in the start-date guard: a `DateTime` object,
      or the string that formatting an instant as `Y-m-d H:i:s` returns. */
  datatype PhpOperand = DateTimeObject(at: int) | FormattedTime(at: int)

  /** PHP's `<` on these operands. Two `DateTime` objects compare their
      instants and two fixed-width `Y-m-d H:i:s` strings compare in time
      order. A `DateTime` cannot be turned into a string, so PHP ranks the
      object above every string. */
  function PhpLess(a: PhpOperand, b: PhpOperand): bool
  {
    match (a, b)
    case (DateTimeObject(x), DateTimeObject(y)) => x < y
    case (FormattedTime(x), FormattedTime(y)) => x < y
    case (DateTimeObject(_), FormattedTime(_)) => false
    case (FormattedTime(_), DateTimeObject(_)) => true
  }

  /** The start-date guard as the source writes it: the `DateTime` of the
      start date compared with `<` to the formatted `now()`, or'ed with the
      end date (at this point a copy of the start date) being before the
      start date. */
  function PastGuardAsWritten(startDate: int, now: int): (rejects: bool)
    ensures !rejects
  {
    var endDate := startDate;
    PhpLess(DateTimeObject(startDate), FormattedTime(now)) ||
    PhpLess(DateTimeObject(endDate), DateTimeObject(startDate))
  }

  /** The request passes every check after the start-date guard: the gift
      card check and the chaining loop's. */
  predicate Admitted(env: Env, req: Request)
  {
    !(req.giftCartRequested && GiftCartPrice(env, req, Rate(env.currencyRate)) == 0.0) &&
    FirstFailure(env.catalog, req.data, 0).None?
  }

  /** The request passes every check that makes the source throw. */
  predicate Accepted(env: Env, req: Request)
  {
    req.startDate >= env.now && Admitted(env, req)
  }

  /** The chain of an accepted request, before settlement. */
  function ChainOf(env: Env, req: Request, times: TimesOracle): (items: seq<Item>)
    requires FirstFailure(env.catalog, req.data, 0).None?
    ensures |items| == |env.catalog|
  {
    var rate := Rate(env.currencyRate);
    Chain(env, req, times, rate, ServiceFee(env.serviceFeeSetting, rate), |env.catalog|)
  }

  /** What `calculate` returns for a request, with the start-date guard as
      the source writes it. */
  function QuoteAsWritten(env: Env, req: Request, times: TimesOracle, coupon: CouponPricer): Calculation
  {
    if PastGuardAsWritten(req.startDate, env.now) then Failed(PastStartDate)
    else if req.giftCartRequested && GiftCartPrice(env, req, Rate(env.currencyRate)) == 0.0 then Failed(GiftCartUnavailable)
    else match FirstFailure(env.catalog, req.data, 0)
      case Some(code) => Failed(code)
      case None => Quoted(env, req, times, coupon)
  }

  /** What `calculate` returns for a request, with the intended start-date
      guard: a start date before now fails. */
  function QuoteOf(env: Env, req: Request, times: TimesOracle, coupon: CouponPricer): Calculation
  {
    if req.startDate < env.now then Failed(PastStartDate) else QuoteAsWritten(env, req, times, coupon)
  }

  /** The settlement state of an admitted request: its chain, settled in
      order of increasing total. */
  function Settled(env: Env, req: Request, times: TimesOracle): (s: State)
    requires Admitted(env, req)
    ensures |s.items| == |env.catalog|
  {
    var gc := GiftCartPrice(env, req, Rate(env.currencyRate));
    var chain := ChainOf(env, req, times);
    var order := SortKeys(Column(chain, TotalField));
    SettleUpTo(gc, chain, InitialState(chain, gc), order, |order|)
  }

  /** The quote of an admitted request: its settlement, less the coupon. */
  function Quoted(env: Env, req: Request, times: TimesOracle, coupon: CouponPricer): Calculation
    requires Admitted(env, req)
  {
    var rate := Rate(env.currencyRate);
    var items := ChainOf(env, req, times);
    var n := |items|;
    var s := Settled(env, req, times);
    var couponPrice := if req.hasCoupon && s.totalPrice > 0.0 then coupon(s.totalPrice) else 0.0;
    Calculated(
      s.status, req.startDate, if n == 0 then req.startDate else items[n - 1].end, rate,
      s.price, Max(s.totalPrice - couponPrice, 0.0), couponPrice,
      s.discount, s.serviceFee, s.commissionFee, GiftCartPrice(env, req, rate), s.items)
  }

  /** The body of the first loop for `key`, once the slot [startDate,
      endDate] is known: prices the item, applies the membership to it and
      appends its availability errors. Only `items[key]` changes. */
  method FillItem(env: Env, req: Request, times: TimesOracle, rate: real, serviceFee: real,
                  key: nat, startDate: int, endDate: int, items: array<Item>)
    requires key < |env.catalog| && key < |req.data| && key < items.Length
    requires endDate == startDate + Duration(env.catalog[key])
    modifies items
    ensures items[..] == old(items[..])[key := BuildItem(env, req, times, rate, serviceFee, key, startDate)]
  {
    var sm := env.catalog[key];
    var value := req.data[key];
    var extraPrice := ExtraPrice(value.extras, rate);
    var totalPrice := sm.totalPrice;
    if value.priceChoice.PriceId? {
      totalPrice := SmartPrice(value.priceChoice.tier, MinuteOfDay(startDate), MinuteOfDay(endDate), rate);
    }
    assert totalPrice == BasePrice(sm, value.priceChoice, startDate, endDate, rate);
    totalPrice := totalPrice + serviceFee + extraPrice;
    items[key] := Item(sm.id, startDate, endDate, sm.price * rate, sm.discount * rate, serviceFee,
                       sm.commissionFee * rate, extraPrice, totalPrice, None, None, []);
    assert items[key] == PricedItem(sm, value, startDate, rate, serviceFee);
    var _ := UserMemberShipCalculate(sm, env.membership, key, items);
    var report := times(sm.masterId, startDate, endDate, sm.id);
    var errors := AvailabilityErrors(report, DayOf(req.startDate), DayOf(endDate),
                                     MinuteOfDay(startDate), MinuteOfDay(endDate));
    items[key] := items[key].(errors := items[key].errors + errors);
  }

  /** One pass of the first loop of `prepareCalculate` for `key`, once the
      keys before it are filled: the slot starts where the previous one
      ends (or at the start date), a negative duration or a missing request
      item stops the loop with its failure, and otherwise `items[key]` is
      filled. */
  method ChainNext(env: Env, req: Request, times: TimesOracle, rate: real, serviceFee: real,
                   key: nat, items: array<Item>)
    returns (failure: Option<FailCode>, endDate: int)
    requires key < |env.catalog| == items.Length && key <= |req.data|
    requires items[..key] == Chain(env, req, times, rate, serviceFee, key)
    modifies items
    ensures failure.None? ==> FirstFailure(env.catalog, req.data, key) == FirstFailure(env.catalog, req.data, key + 1)
    ensures failure.Some? ==> failure == FirstFailure(env.catalog, req.data, key)
    ensures failure.None? ==> key < |req.data| && items[..key + 1] == Chain(env, req, times, rate, serviceFee, key + 1)
    ensures failure.None? ==> endDate == items[key].end
  {
    var sm := env.catalog[key];
    var time := sm.interval + sm.pause;
    var startDate := req.startDate;
    if key > 0 {
      startDate := items[key - 1].end;
    }
    endDate := startDate;
    if time < 0 {
      return Some(BadDuration), endDate;
    }
    endDate := endDate + time;
    if key >= |req.data| {
      return Some(MissingItem), endDate;
    }
    ExtendChain(env, req, times, rate, serviceFee, key, startDate, endDate, items);
    failure := None;
  }

  /** Fills `items[key]` after a filled chain prefix, so that the prefix
      grows by one. */
  method ExtendChain(env: Env, req: Request, times: TimesOracle, rate: real, serviceFee: real,
                     key: nat, startDate: int, endDate: int, items: array<Item>)
    requires key < |env.catalog| && key < |req.data| && key < items.Length
    requires items[..key] == Chain(env, req, times, rate, serviceFee, key)
    requires key == 0 ==> startDate == req.startDate
    requires key > 0 ==> startDate == items[key - 1].end
    requires endDate == startDate + Duration(env.catalog[key])
    modifies items
    ensures items[..key + 1] == Chain(env, req, times, rate, serviceFee, key + 1)
    ensures items[key].end == endDate
  {
    ChainStep(env, req, times, rate, serviceFee, key, startDate);
    ghost var before := items[..];
    FillItem(env, req, times, rate, serviceFee, key, startDate, endDate, items);
    assert items[..key] == before[..key];
    assert items[..key + 1] == items[..key] + [items[key]];
  }

  /** The first loop of `prepareCalculate`: fills `items` key by key,
      each slot starting at the previous slot's end. It stops with the
      failure the source throws, if any; otherwise `items` holds the chain
      and `endDate` the end of its last slot. */
  method ChainItems(env: Env, req: Request, times: TimesOracle, rate: real, serviceFee: real)
    returns (failure: Option<FailCode>, items: array<Item>, endDate: int)
    ensures fresh(items) && items.Length == |env.catalog|
    ensures failure == FirstFailure(env.catalog, req.data, 0)
    ensures failure.None? ==> |env.catalog| <= |req.data|
    ensures failure.None? ==> items[..] == Chain(env, req, times, rate, serviceFee, |env.catalog|)
    ensures failure.None? ==> endDate == if |env.catalog| == 0 then req.startDate else items[|env.catalog| - 1].end
  {
    var n := |env.catalog|;
    items := new Item[n](_ => Item(0, 0, 0, 0.0, 0.0, 0.0, 0.0, 0.0, 0.0, None, None, []));
    endDate := req.startDate;
    var key := 0;
    while key < n
      invariant 0 <= key <= n && key <= |req.data|
      invariant FirstFailure(env.catalog, req.data, 0) == FirstFailure(env.catalog, req.data, key)
      invariant items[..key] == Chain(env, req, times, rate, serviceFee, key)
      invariant endDate == if key == 0 then req.startDate else items[key - 1].end
    {
      failure, endDate := ChainNext(env, req, times, rate, serviceFee, key, items);
      if failure.Some? {
        return;
      }
      key := key + 1;
    }
    failure := None;
    assert items[..] == items[..n];
  }

  /** One pass of the second loop of `prepareCalculate` for `key`: adds
      the item's price, discount and fees to the sums, clears the status
      if the item has errors, and, unless the item is already free, either
      zeroes it and the aggregate (the gift card covers the aggregate) or
      takes the gift share off it. */
  method VisitItem(giftCartPrice: real, snap: seq<Item>, key: nat, items: array<Item>,
                   price: real, discount: real, serviceFee: real, commissionFee: real,
                   status: bool, totalPrice: real, giftPrice: real)
    returns (price': real, discount': real, serviceFee': real, commissionFee': real,
             status': bool, totalPrice': real, giftPrice': real)
    requires key < |snap| == items.Length
    modifies items
    ensures State(items[..], price', discount', serviceFee', commissionFee', status', totalPrice', giftPrice')
            == Visit(giftCartPrice, snap, State(old(items[..]), price, discount, serviceFee, commissionFee,
                                                status, totalPrice, giftPrice), key)
  {
    var item := snap[key];
    price' := price + item.price;
    discount' := discount + item.discount;
    serviceFee' := serviceFee + item.serviceFee;
    commissionFee' := commissionFee + item.commissionFee;
    status' := status;
    if item.errors != [] {
      status' := false;
    }
    totalPrice', giftPrice' := totalPrice, giftPrice;
    if items[key].totalPrice != 0.0 {
      if giftCartPrice >= totalPrice {
        totalPrice' := 0.0;
        items[key] := items[key].(totalPrice := totalPrice');
      } else if giftPrice > 0.0 {
        var decrementPrice := giftPrice;
        if giftPrice > item.totalPrice {
          giftPrice' := giftPrice + (giftPrice - item.totalPrice);
          decrementPrice := item.totalPrice;
        }
        items[key] := items[key].(giftCartPrice := Some(decrementPrice), totalPrice := item.totalPrice - decrementPrice);
      }
    }
  }

  /** The second loop of `prepareCalculate`: visits the keys in `order`,
      adds up the four sums, clears the status on an item with errors, and
      spreads the gift card over the items in place. */
  method SettleItems(giftCartPrice: real, snap: seq<Item>, s0: State, order: seq<nat>, items: array<Item>)
    returns (s: State)
    requires items[..] == s0.items && |snap| == items.Length
    requires forall j :: 0 <= j < |order| ==> order[j] < |snap|
    modifies items
    ensures s == SettleUpTo(giftCartPrice, snap, s0, order, |order|) && items[..] == s.items
  {
    var status := s0.status;
    var price, discount, serviceFee, commissionFee := s0.price, s0.discount, s0.serviceFee, s0.commissionFee;
    var totalPrice, giftPrice := s0.totalPrice, s0.giftPrice;
    var i := 0;
    while i < |order|
      invariant 0 <= i <= |order|
      invariant State(items[..], price, discount, serviceFee, commissionFee, status, totalPrice, giftPrice)
                == SettleUpTo(giftCartPrice, snap, s0, order, i)
    {
      price, discount, serviceFee, commissionFee, status, totalPrice, giftPrice :=
        VisitItem(giftCartPrice, snap, order[i], items,
                  price, discount, serviceFee, commissionFee, status, totalPrice, giftPrice);
      i := i + 1;
    }
    s := State(items[..], price, discount, serviceFee, commissionFee, status, totalPrice, giftPrice);
  }

  /** The settlement loop run over the chain of an accepted request, keys
      taken in order of increasing total. */
  method SettleChain(env: Env, req: Request, times: TimesOracle, giftCartPrice: real, items: array<Item>)
    returns (s: State)
    requires Accepted(env, req) && giftCartPrice == GiftCartPrice(env, req, Rate(env.currencyRate))
    requires items[..] == ChainOf(env, req, times)
    modifies items
    ensures s == Settled(env, req, times) && items[..] == s.items
  {
    var snap := items[..];
    var s0 := InitialState(snap, giftCartPrice);
    var order := SortKeys(Column(snap, TotalField));
    SortKeysIsPermutation(Column(snap, TotalField));
    s := SettleItems(giftCartPrice, snap, s0, order, items);
  }

  /** The rest of `prepareCalculate` and `calculate` once the items are
      chained: the settlement, then the coupon. */
  method SettleQuote(env: Env, req: Request, times: TimesOracle, coupon: CouponPricer,
                     giftCartPrice: real, items: array<Item>, endDate: int)
    returns (r: Calculation)
    requires Accepted(env, req) && giftCartPrice == GiftCartPrice(env, req, Rate(env.currencyRate))
    requires items[..] == ChainOf(env, req, times)
    requires endDate == if items.Length == 0 then req.startDate else items[items.Length - 1].end
    modifies items
    ensures r == Quoted(env, req, times, coupon)
  {
    var s := SettleChain(env, req, times, giftCartPrice, items);
    var totalPrice := s.totalPrice;
    var couponPrice := 0.0;
    if req.hasCoupon && totalPrice > 0.0 {
      couponPrice := coupon(totalPrice);
      totalPrice := totalPrice - couponPrice;
    }
    r := Calculated(s.status, req.startDate, endDate, Rate(env.currencyRate), s.price, Max(totalPrice, 0.0), couponPrice,
                    s.discount, s.serviceFee, s.commissionFee, giftCartPrice, items[..]);
  }

  /** `calculate` with `prepareCalculate`: every exception of the source is
      a `Failed` answer; otherwise the chained, priced and settled quote. */
  method Calculate(env: Env, req: Request, times: TimesOracle, coupon: CouponPricer) returns (r: Calculation)
    ensures r == QuoteOf(env, req, times, coupon)
  {
    var rate := Rate(env.currencyRate);
    var serviceFee := ServiceFee(env.serviceFeeSetting, rate);
    if req.startDate < env.now {
      return Failed(PastStartDate);
    }
    var giftCartPrice := 0.0;
    if req.giftCartRequested {
      giftCartPrice := (if env.giftCard.Some? then env.giftCard.value else 0.0) * rate;
      if giftCartPrice == 0.0 {
        return Failed(GiftCartUnavailable);
      }
    }
    assert giftCartPrice == GiftCartPrice(env, req, rate);
    var failure, items, endDate := ChainItems(env, req, times, rate, serviceFee);
    if failure.Some? {
      return Failed(failure.value);
    }
    r := SettleQuote(env, req, times, coupon, giftCartPrice, items, endDate);
  }
}

=== FILE: QuoteProperties.dfy ===
/** What a quote promises: when it fails, how its slots are chained, when
    its status is false, what its sums and totals are, and how memberships
    and gift cards bear on the items. */
module QuoteProperties {
  import opened BookingTypes
  import opened Pricing
  import opened MemberShips
  import opened Availability
  import opened Settlement
  import opened Quote

  /** The first slot starts at the start date, every later slot starts where
      the one before ends, and each lasts its service's interval plus
      pause. */
  lemma ChainSlots(env: Env, req: Request, times: TimesOracle, rate: real, fee: real, n: nat)
    requires n <= |env.catalog| && n <= |req.data|
    ensures var items := Chain(env, req, times, rate, fee, n);
            (n > 0 ==> items[0].start == req.startDate) &&
            (forall k :: 0 < k < n ==> items[k].start == items[k - 1].end) &&
            (forall k :: 0 <= k < n ==> items[k].end == items[k].start + Duration(env.catalog[k]))
  {
    var items := Chain(env, req, times, rate, fee, n);
    forall k | 0 <= k < n
      ensures items[k].end == items[k].start + Duration(env.catalog[k])
      ensures k > 0 ==> items[k].start == items[k - 1].end
      ensures k == 0 ==> items[k].start == req.startDate
    {
      ChainItem(env, req, times, rate, fee, n, k);
      if k > 0 {
        ChainItem(env, req, times, rate, fee, n, k - 1);
        ChainItem(env, req, times, rate, fee, k, k - 1);
      }
    }
  }

  /** `calculate` never throws: a start date in the past, or a named gift
      card that is missing or worth nothing, answers with a failure; past
      those checks, a negative duration on the first row fails with
      BadDuration, and more rows than request items, every duration being
      non-negative, fails with MissingItem; a request that passes all checks
      is quoted. */
  lemma QuoteFailures(env: Env, req: Request, times: TimesOracle, coupon: CouponPricer)
    ensures req.startDate < env.now ==> QuoteOf(env, req, times, coupon) == Failed(PastStartDate)
    ensures (req.startDate >= env.now && req.giftCartRequested && (env.giftCard.None? || env.giftCard.value == 0.0))
            ==> QuoteOf(env, req, times, coupon) == Failed(GiftCartUnavailable)
    ensures (req.startDate >= env.now && !(req.giftCartRequested && (env.giftCard.None? || env.giftCard.value == 0.0)) &&
             |env.catalog| > |req.data| && forall i :: 0 <= i < |env.catalog| ==> Duration(env.catalog[i]) >= 0)
            ==> QuoteOf(env, req, times, coupon) == Failed(MissingItem)
    ensures (req.startDate >= env.now && !(req.giftCartRequested && (env.giftCard.None? || env.giftCard.value == 0.0)) &&
             |env.catalog| > 0 && Duration(env.catalog[0]) < 0)
            ==> QuoteOf(env, req, times, coupon) == Failed(BadDuration)
    ensures QuoteOf(env, req, times, coupon).Calculated? <==> Accepted(env, req)
  {
    var rate := Rate(env.currencyRate);
    if req.giftCartRequested && env.giftCard.Some? && env.giftCard.value != 0.0 {
      assert GiftCartPrice(env, req, rate) != 0.0;
    }
    if |env.catalog| > |req.data| {
      assert !(|req.data| < |env.catalog| ==> |req.data| < |req.data|);
    }
  }

  /** A start date before now passes the start-date guard as written, so a
      request that passes every later check is quoted for a past date; the
      intended guard answers with a failure. */
  lemma PastStartSlipsThrough(env: Env, req: Request, times: TimesOracle, coupon: CouponPricer)
    requires req.startDate < env.now && Admitted(env, req)
    ensures QuoteAsWritten(env, req, times, coupon) == Quoted(env, req, times, coupon)
    ensures QuoteAsWritten(env, req, times, coupon).Calculated?
    ensures QuoteOf(env, req, times, coupon) == Failed(PastStartDate)
  {
  }

  /** The intended guard changes nothing for a start date that is not in
      the past. */
  lemma GuardAgrees(env: Env, req: Request, times: TimesOracle, coupon: CouponPricer)
    requires req.startDate >= env.now
    ensures QuoteOf(env, req, times, coupon) == QuoteAsWritten(env, req, times, coupon)
  {
  }

  // ---------------------------------------------------------------------
  // An accepted request's quote, through its settlement state.

  /** An accepted request is quoted from its settlement state and its
      chain. */
  lemma QuoteIsSettled(env: Env, req: Request, times: TimesOracle, coupon: CouponPricer)
    requires Accepted(env, req)
    ensures var r := QuoteOf(env, req, times, coupon);
            var s := Settled(env, req, times);
            var chain := ChainOf(env, req, times);
            var n := |chain|;
            r.Calculated? && r.items == s.items && r.status == s.status && r.price == s.price &&
            r.totalDiscount == s.discount && r.totalServiceFee == s.serviceFee &&
            r.totalCommissionFee == s.commissionFee &&
            CouponApplied(s.totalPrice, req.hasCoupon, coupon, r.couponPrice, r.totalPrice) &&
            r.endDate == (if n == 0 then req.startDate else chain[n - 1].end)
  {
  }

  /** The settled items are the chained ones but for their totals and gift
      parts. */
  lemma SettledItems(env: Env, req: Request, times: TimesOracle)
    requires Accepted(env, req)
    ensures var s := Settled(env, req, times);
            var chain := ChainOf(env, req, times);
            forall k :: 0 <= k < |chain| ==> SameButCredit(s.items[k], chain[k])
  {
    var gc := GiftCartPrice(env, req, Rate(env.currencyRate));
    var chain := ChainOf(env, req, times);
    var order := SortKeys(Column(chain, TotalField));
    SettleKeepsItems(gc, chain, InitialState(chain, gc), order, |order|);
  }

  /** The quote's slots are the chain's: same keys, same order, same
      services and times, same prices and errors; settlement only changes
      totals and gift parts. The end date is the last slot's end. */
  lemma QuoteSchedule(env: Env, req: Request, times: TimesOracle, coupon: CouponPricer)
    requires Accepted(env, req)
    ensures var r := QuoteOf(env, req, times, coupon);
            var chain := ChainOf(env, req, times);
            var n := |env.catalog|;
            r.Calculated? && |r.items| == n &&
            (forall k :: 0 <= k < n ==> SameButCredit(r.items[k], chain[k])) &&
            (n > 0 ==> r.items[0].start == req.startDate) &&
            (forall k :: 0 < k < n ==> r.items[k].start == r.items[k - 1].end) &&
            (forall k :: 0 <= k < n ==> r.items[k].end == r.items[k].start + Duration(env.catalog[k])) &&
            r.endDate == (if n == 0 then req.startDate else r.items[n - 1].end)
  {
    QuoteIsSettled(env, req, times, coupon);
    SettledItems(env, req, times);
    SettledSchedule(env, req, times);
  }

  /** The settled items keep the chain's slots. */
  lemma SettledSchedule(env: Env, req: Request, times: TimesOracle)
    requires Accepted(env, req)
    ensures var s := Settled(env, req, times);
            var chain := ChainOf(env, req, times);
            var n := |env.catalog|;
            (n > 0 ==> s.items[0].start == req.startDate) &&
            (forall k :: 0 < k < n ==> s.items[k].start == s.items[k - 1].end) &&
            (forall k :: 0 <= k < n ==> s.items[k].end == s.items[k].start + Duration(env.catalog[k])) &&
            (n > 0 ==> s.items[n - 1].end == chain[n - 1].end)
  {
    var rate := Rate(env.currencyRate);
    var chain := ChainOf(env, req, times);
    var s := Settled(env, req, times);
    var n := |env.catalog|;
    SettledItems(env, req, times);
    ChainSlots(env, req, times, rate, ServiceFee(env.serviceFeeSetting, rate), n);
    SameSlots(s.items, chain);
  }

  /** Item lists alike but for credit have the same slots. */
  lemma SameSlots(a: seq<Item>, b: seq<Item>)
    requires |a| == |b| && forall k :: 0 <= k < |b| ==> SameButCredit(a[k], b[k])
    ensures forall k :: 0 <= k < |b| ==> a[k].start == b[k].start && a[k].end == b[k].end
  {
    forall k | 0 <= k < |b|
      ensures a[k].start == b[k].start && a[k].end == b[k].end
    {
      SameButCreditFields(a[k], b[k]);
    }
  }

  /** The status is false exactly when some item carries an error. */
  lemma QuoteStatus(env: Env, req: Request, times: TimesOracle, coupon: CouponPricer)
    requires Accepted(env, req)
    ensures var r := QuoteOf(env, req, times, coupon);
            r.Calculated? && (r.status <==> forall k :: 0 <= k < |r.items| ==> r.items[k].errors == [])
  {
    QuoteIsSettled(env, req, times, coupon);
    var gc := GiftCartPrice(env, req, Rate(env.currencyRate));
    var chain := ChainOf(env, req, times);
    SettleAllStatus(gc, chain, InitialState(chain, gc), SortKeys(Column(chain, TotalField)));
  }

  /** A field other than the total is summed over the settled items. */
  lemma SettledFieldSum(env: Env, req: Request, times: TimesOracle, f: Field)
    requires Accepted(env, req) && f != TotalField
    ensures var s := Settled(env, req, times);
            Acc(s, f) == Sum(Column(s.items, f))
  {
    var gc := GiftCartPrice(env, req, Rate(env.currencyRate));
    var chain := ChainOf(env, req, times);
    var s0 := InitialState(chain, gc);
    assert Acc(s0, f) == 0.0;
    SettleAllSums(gc, chain, s0, SortKeys(Column(chain, TotalField)), f);
  }

  /** The reported price, discount, service fee and commission fee are the
      sums of the items' fields, whatever order the settlement visits the
      items in. */
  lemma QuoteSums(env: Env, req: Request, times: TimesOracle, coupon: CouponPricer)
    requires Accepted(env, req)
    ensures var r := QuoteOf(env, req, times, coupon);
            r.Calculated? &&
            r.price == Sum(Column(r.items, PriceField)) &&
            r.totalDiscount == Sum(Column(r.items, DiscountField)) &&
            r.totalServiceFee == Sum(Column(r.items, ServiceFeeField)) &&
            r.totalCommissionFee == Sum(Column(r.items, CommissionFeeField))
  {
    QuoteIsSettled(env, req, times, coupon);
    SettledFieldSum(env, req, times, PriceField);
    SettledFieldSum(env, req, times, DiscountField);
    SettledFieldSum(env, req, times, ServiceFeeField);
    SettledFieldSum(env, req, times, CommissionFeeField);
  }

  /** An item whose service a usable membership covers costs nothing in the
      quote, whatever its smart pricing, extras or the gift card. */
  lemma QuoteMemberShip(env: Env, req: Request, times: TimesOracle, coupon: CouponPricer, k: nat)
    requires Accepted(env, req) && k < |env.catalog|
    requires env.membership.Some? && Covers(env.membership.value, env.catalog[k].serviceId)
    ensures var r := QuoteOf(env, req, times, coupon);
            r.Calculated? && k < |r.items| &&
            r.items[k].price == 0.0 && r.items[k].discount == 0.0 && r.items[k].serviceFee == 0.0 &&
            r.items[k].commissionFee == 0.0 && r.items[k].extraPrice == 0.0 && r.items[k].totalPrice == 0.0 &&
            r.items[k].userMemberShipId == Some(env.membership.value.id)
  {
    QuoteIsSettled(env, req, times, coupon);
    var rate := Rate(env.currencyRate);
    var fee := ServiceFee(env.serviceFeeSetting, rate);
    var gc := GiftCartPrice(env, req, rate);
    var chain := ChainOf(env, req, times);
    ChainItem(env, req, times, rate, fee, |env.catalog|, k);
    assert chain[k].totalPrice == 0.0;
    var order := SortKeys(Column(chain, TotalField));
    SettleKeepsZero(gc, chain, InitialState(chain, gc), order, |order|);
  }

  /** Chained item `k` is the item built for key `k` at its slot's start. */
  lemma ChainItemParts(env: Env, req: Request, times: TimesOracle, k: nat)
    requires Accepted(env, req) && k < |env.catalog|
    ensures k < |req.data|
    ensures var rate := Rate(env.currencyRate);
            var fee := ServiceFee(env.serviceFeeSetting, rate);
            var it := ChainOf(env, req, times)[k];
            it == BuildItem(env, req, times, rate, fee, k, it.start)
  {
    var rate := Rate(env.currencyRate);
    var fee := ServiceFee(env.serviceFeeSetting, rate);
    ChainItem(env, req, times, rate, fee, |env.catalog|, k);
  }

  /** Every quoted item carries the availability errors `times` reports for
      its own slot, judged against the request's start day. */
  lemma QuoteErrors(env: Env, req: Request, times: TimesOracle, coupon: CouponPricer, k: nat)
    requires Accepted(env, req) && k < |env.catalog|
    ensures var r := QuoteOf(env, req, times, coupon);
            var sm := env.catalog[k];
            r.Calculated? && k < |r.items| && r.items[k].serviceMasterId == sm.id &&
            r.items[k].errors == AvailabilityErrors(times(sm.masterId, r.items[k].start, r.items[k].end, sm.id),
                                                    DayOf(req.startDate), DayOf(r.items[k].end),
                                                    MinuteOfDay(r.items[k].start), MinuteOfDay(r.items[k].end))
  {
    QuoteIsSettled(env, req, times, coupon);
    SettledItems(env, req, times);
    var rate := Rate(env.currencyRate);
    var chain := ChainOf(env, req, times);
    ChainItemParts(env, req, times, k);
    BuildItemParts(env, req, times, rate, ServiceFee(env.serviceFeeSetting, rate), k, chain[k].start);
    SameButCreditFields(Settled(env, req, times).items[k], chain[k]);
  }

  /** An item whose service the membership does not cover keeps the priced
      item's price, discount, fees and extras, records no membership, and
      enters settlement with the priced item's total. */
  lemma QuoteUncovered(env: Env, req: Request, times: TimesOracle, coupon: CouponPricer, k: nat)
    requires Accepted(env, req) && k < |env.catalog|
    requires !(env.membership.Some? && Covers(env.membership.value, env.catalog[k].serviceId))
    ensures k < |req.data|
    ensures var r := QuoteOf(env, req, times, coupon);
            var rate := Rate(env.currencyRate);
            r.Calculated? && k < |r.items| &&
            var p := PricedItem(env.catalog[k], req.data[k], r.items[k].start, rate,
                                ServiceFee(env.serviceFeeSetting, rate));
            r.items[k].price == p.price && r.items[k].discount == p.discount &&
            r.items[k].serviceFee == p.serviceFee && r.items[k].commissionFee == p.commissionFee &&
            r.items[k].extraPrice == p.extraPrice && r.items[k].userMemberShipId.None? &&
            ChainOf(env, req, times)[k].totalPrice == p.totalPrice
  {
    QuoteIsSettled(env, req, times, coupon);
    SettledItems(env, req, times);
    var rate := Rate(env.currencyRate);
    var chain := ChainOf(env, req, times);
    ChainItemParts(env, req, times, k);
    BuildItemParts(env, req, times, rate, ServiceFee(env.serviceFeeSetting, rate), k, chain[k].start);
    SameButCreditFields(Settled(env, req, times).items[k], chain[k]);
  }

  /** An item whose chained total is at least 0 is settled to between 0 and
      that total. */
  lemma QuoteItemCredit(env: Env, req: Request, times: TimesOracle, coupon: CouponPricer, k: nat)
    requires Accepted(env, req) && k < |env.catalog|
    requires ChainOf(env, req, times)[k].totalPrice >= 0.0
    ensures var r := QuoteOf(env, req, times, coupon);
            r.Calculated? && k < |r.items| &&
            0.0 <= r.items[k].totalPrice <= ChainOf(env, req, times)[k].totalPrice
  {
    QuoteIsSettled(env, req, times, coupon);
    SettledItemCredit(env, req, times, k);
  }

  /** The settled item `k` lies between 0 and its chained total. */
  lemma SettledItemCredit(env: Env, req: Request, times: TimesOracle, k: nat)
    requires Accepted(env, req) && k < |env.catalog|
    requires ChainOf(env, req, times)[k].totalPrice >= 0.0
    ensures 0.0 <= Settled(env, req, times).items[k].totalPrice <= ChainOf(env, req, times)[k].totalPrice
  {
    var gc := GiftCartPrice(env, req, Rate(env.currencyRate));
    var chain := ChainOf(env, req, times);
    var order := SortKeys(Column(chain, TotalField));
    SettleItemBounds(gc, chain, InitialState(chain, gc), order, |order|, k);
  }

  /** When every chained item's total is at least 0, settlement leaves
      each between 0 and that total. */
  lemma QuoteCredit(env: Env, req: Request, times: TimesOracle, coupon: CouponPricer)
    requires Accepted(env, req)
    requires forall k :: 0 <= k < |env.catalog| ==> ChainOf(env, req, times)[k].totalPrice >= 0.0
    ensures var r := QuoteOf(env, req, times, coupon);
            var chain := ChainOf(env, req, times);
            r.Calculated? && |r.items| == |chain| &&
            forall k :: 0 <= k < |chain| ==> 0.0 <= r.items[k].totalPrice <= chain[k].totalPrice
  {
    QuoteIsSettled(env, req, times, coupon);
    forall k | 0 <= k < |env.catalog|
      ensures 0.0 <= Settled(env, req, times).items[k].totalPrice <= ChainOf(env, req, times)[k].totalPrice
    {
      SettledItemCredit(env, req, times, k);
    }
  }

  /** The aggregate is 0 when the gift card is worth at least the sum of the
      chained items' totals, and that sum otherwise. */
  lemma SettledAggregate(env: Env, req: Request, times: TimesOracle)
    requires Accepted(env, req)
    ensures var gc := GiftCartPrice(env, req, Rate(env.currencyRate));
            var full := Sum(Column(ChainOf(env, req, times), TotalField));
            Settled(env, req, times).totalPrice == if gc >= full then 0.0 else full
  {
    var gc := GiftCartPrice(env, req, Rate(env.currencyRate));
    var chain := ChainOf(env, req, times);
    var totals := Column(chain, TotalField);
    SortKeysIsPermutation(totals);
    SettleAllAggregate(gc, chain, InitialState(chain, gc), SortKeys(totals));
  }

  /** The reported total is the aggregate less the coupon, floored at 0,
      where the aggregate is the sum of the chained items' totals, or 0 when
      the gift card is worth at least that sum; the coupon is asked for only
      when a coupon is given and the aggregate is above 0. */
  lemma QuoteTotal(env: Env, req: Request, times: TimesOracle, coupon: CouponPricer)
    requires Accepted(env, req)
    ensures var r := QuoteOf(env, req, times, coupon);
            var gc := GiftCartPrice(env, req, Rate(env.currencyRate));
            var full := Sum(Column(ChainOf(env, req, times), TotalField));
            r.Calculated? && r.totalPrice >= 0.0 &&
            CouponApplied(if gc >= full then 0.0 else full, req.hasCoupon, coupon, r.couponPrice, r.totalPrice) &&
            (gc >= full ==> r.couponPrice == 0.0 && r.totalPrice == 0.0)
  {
    QuoteIsSettled(env, req, times, coupon);
    SettledAggregate(env, req, times);
  }

  /** The coupon step of `calculate`: the coupon is asked for only when a
      coupon is given and the aggregate is above 0, and the total is the
      aggregate less the coupon, floored at 0. */
  predicate CouponApplied(aggregate: real, hasCoupon: bool, coupon: CouponPricer, couponPrice: real, total: real)
  {
    couponPrice == (if hasCoupon && aggregate > 0.0 then coupon(aggregate) else 0.0) &&
    total == Max(aggregate - couponPrice, 0.0)
  }

  /** A gift card worth at least the aggregate settles every item and the
      quote to 0, with no coupon asked for. */
  lemma QuoteGiftCoversAll(env: Env, req: Request, times: TimesOracle, coupon: CouponPricer)
    requires Accepted(env, req)
    requires var gc := GiftCartPrice(env, req, Rate(env.currencyRate));
             gc >= 0.0 && gc >= Sum(Column(ChainOf(env, req, times), TotalField))
    ensures var r := QuoteOf(env, req, times, coupon);
            r.Calculated? && r.totalPrice == 0.0 && r.couponPrice == 0.0 &&
            forall k :: 0 <= k < |r.items| ==> r.items[k].totalPrice == 0.0
  {
    QuoteIsSettled(env, req, times, coupon);
    var gc := GiftCartPrice(env, req, Rate(env.currencyRate));
    var chain := ChainOf(env, req, times);
    var totals := Column(chain, TotalField);
    SortKeysIsPermutation(totals);
    SettleAllCovered(gc, chain, InitialState(chain, gc), SortKeys(totals));
  }
}

=== FILE: Settlement.dfy ===
/** Settlement of the priced items: the visit order (`sortBy('total_price')`),
    the gift-card waterfall with its carry, the per-field sums and the
    aggregate status, as a left fold over the visit order. */
module Settlement {
  import opened BookingTypes

  /** The keys 0, 1, ..., n - 1 in order. */
  function Range(n: nat): (r: seq<nat>)
    ensures |r| == n
    ensures forall i :: 0 <= i < n ==> r[i] == i
  {
    if n == 0 then [] else Range(n - 1) + [n - 1]
  }

  // ---------------------------------------------------------------------
  // The visit order: ascending total, equal totals in key order (a stable
  // sort of keys that start out ascending).

  predicate Precedes(totals: seq<real>, a: nat, b: nat)
    requires a < |totals| && b < |totals|
  {
    totals[a] < totals[b] || (totals[a] == totals[b] && a < b)
  }

  predicate SortedBy(totals: seq<real>, o: seq<nat>)
  {
    (forall i :: 0 <= i < |o| ==> o[i] < |totals|) &&
    (forall i, j :: 0 <= i < j < |o| ==> Precedes(totals, o[i], o[j]))
  }

  /** Puts key `k` after every key whose total is not above its own. */
  function Insert(totals: seq<real>, k: nat, o: seq<nat>): (r: seq<nat>)
    requires k < |totals|
    requires forall i :: 0 <= i < |o| ==> o[i] < |totals|
    ensures multiset(r) == multiset(o) + multiset{k}
    ensures |r| == |o| + 1
    ensures forall x :: x in r ==> x == k || x in o
  {
    if o == [] then [k]
    else if totals[k] < totals[o[0]] then [k] + o
    else
      assert o == [o[0]] + o[1..];
      [o[0]] + Insert(totals, k, o[1..])
  }

  /** Inserting a key larger than every key already placed keeps the order
      sorted by (total, key). */
  lemma {:induction false} InsertSorted(totals: seq<real>, k: nat, o: seq<nat>)
    requires k < |totals| && SortedBy(totals, o)
    requires forall i :: 0 <= i < |o| ==> o[i] < k
    ensures SortedBy(totals, Insert(totals, k, o))
  {
    var r := Insert(totals, k, o);
    if o != [] && totals[k] >= totals[o[0]] {
      var rest := Insert(totals, k, o[1..]);
      InsertSorted(totals, k, o[1..]);
      assert r == [o[0]] + rest;
      forall x | x in rest
        ensures x < |totals| && Precedes(totals, o[0], x)
      {
        if x != k {
          var p :| 0 <= p < |o| - 1 && o[1..][p] == x;
          assert o[p + 1] == x;
        }
      }
      forall i, j | 0 <= i < j < |r|
        ensures Precedes(totals, r[i], r[j])
      {
        if i > 0 {
          assert r[i] == rest[i - 1] && r[j] == rest[j - 1];
        } else {
          assert r[j] == rest[j - 1];
          assert rest[j - 1] in rest;
        }
      }
    }
  }

  function SortPrefix(totals: seq<real>, n: nat): (o: seq<nat>)
    requires n <= |totals|
    ensures multiset(o) == multiset(Range(n)) && |o| == n
    ensures SortedBy(totals, o)
    ensures forall i :: 0 <= i < |o| ==> o[i] < n
  {
    if n == 0 then []
    else
      var prev := SortPrefix(totals, n - 1);
      var o := Insert(totals, n - 1, prev);
      InsertSorted(totals, n - 1, prev);
      assert Range(n) == Range(n - 1) + [n - 1];
      RangeKeys(o, n);
      o
  }

  /** The order in which the settlement loop visits the keys. */
  function SortKeys(totals: seq<real>): (o: seq<nat>)
    ensures multiset(o) == multiset(Range(|totals|)) && |o| == |totals|
    ensures SortedBy(totals, o)
  {
    SortPrefix(totals, |totals|)
  }

  predicate Distinct(o: seq<nat>)
  {
    forall i, j :: 0 <= i < j < |o| ==> o[i] != o[j]
  }

  /** A list with the keys below `n` as its multiset holds exactly those
      keys. */
  lemma RangeKeys(o: seq<nat>, n: nat)
    requires multiset(o) == multiset(Range(n))
    ensures forall k: nat :: k in o <==> k < n
    ensures forall j :: 0 <= j < |o| ==> o[j] < n
  {
    var r := Range(n);
    forall k: nat
      ensures k in o <==> k < n
    {
      if k in o {
        assert k in multiset(o);
        assert k in multiset(r);
        assert k in r;
      }
      if k < n {
        assert r[k] == k;
        assert k in multiset(r);
        assert k in multiset(o);
      }
    }
    forall j | 0 <= j < |o|
      ensures o[j] < n
    {
      assert o[j] in o;
    }
  }

  /** The visit order holds every key exactly once. */
  lemma SortKeysIsPermutation(totals: seq<real>)
    ensures Distinct(SortKeys(totals))
    ensures forall k: nat :: k in SortKeys(totals) <==> k < |totals|
    ensures forall j :: 0 <= j < |totals| ==> SortKeys(totals)[j] < |totals|
  {
    RangeKeys(SortKeys(totals), |totals|);
  }

  // ---------------------------------------------------------------------
  // Sums over a list of keys.

  /** The sum of `vals` at the given keys, added in key-list order. */
  function SumAt(vals: seq<real>, keys: seq<nat>): real
    requires forall i :: 0 <= i < |keys| ==> keys[i] < |vals|
  {
    if keys == [] then 0.0 else SumAt(vals, keys[..|keys| - 1]) + vals[keys[|keys| - 1]]
  }

  /** Summing at the keys in order sums the whole list. */
  lemma {:induction false} SumAtRange(vals: seq<real>, n: nat)
    requires n <= |vals|
    ensures SumAt(vals, Range(n)) == Sum(vals[..n])
  {
    if n > 0 {
      assert Range(n)[..n - 1] == Range(n - 1);
      assert vals[..n][..n - 1] == vals[..n - 1];
      SumAtRange(vals, n - 1);
    }
  }

  /** Taking one key out of the middle of the list removes its value. */
  lemma {:induction false} SumAtRemove(vals: seq<real>, keys: seq<nat>, j: nat)
    requires forall i :: 0 <= i < |keys| ==> keys[i] < |vals|
    requires j < |keys|
    ensures SumAt(vals, keys) == SumAt(vals, keys[..j] + keys[j + 1..]) + vals[keys[j]]
  {
    var rest := keys[..j] + keys[j + 1..];
    if j == |keys| - 1 {
      assert rest == keys[..|keys| - 1];
    } else {
      var init := keys[..|keys| - 1];
      SumAtRemove(vals, init, j);
      assert init[..j] + init[j + 1..] == rest[..|rest| - 1];
      assert rest[|rest| - 1] == keys[|keys| - 1];
    }
  }

  lemma MultisetRemoveAt(b: seq<nat>, j: nat)
    requires j < |b|
    ensures multiset(b[..j] + b[j + 1..]) == multiset(b) - multiset{b[j]}
  {
    assert b == b[..j] + [b[j]] + b[j + 1..];
  }

  /** Removing one key keeps every remaining key below a bound. */
  lemma RemoveKeepsBound(b: seq<nat>, j: nat, bound: nat, rest: seq<nat>)
    requires j < |b| && rest == b[..j] + b[j + 1..]
    requires forall i :: 0 <= i < |b| ==> b[i] < bound
    ensures forall i :: 0 <= i < |rest| ==> rest[i] < bound
  {
    forall i | 0 <= i < |rest|
      ensures rest[i] < bound
    {
      if i < j {
        assert rest[i] == b[i];
      } else {
        assert rest[i] == b[i + 1];
      }
    }
  }

  /** The sum does not depend on the order of the keys. */
  lemma {:induction false} SumAtPermutation(vals: seq<real>, a: seq<nat>, b: seq<nat>)
    requires forall i :: 0 <= i < |a| ==> a[i] < |vals|
    requires forall i :: 0 <= i < |b| ==> b[i] < |vals|
    requires multiset(a) == multiset(b)
    ensures SumAt(vals, a) == SumAt(vals, b)
    decreases |a|
  {
    if a == [] {
      assert |b| == |multiset(b)| == 0;
    } else {
      var x := a[|a| - 1];
      var a' := a[..|a| - 1];
      MultisetRemoveAt(a, |a| - 1);
      assert a[..|a| - 1] + a[|a|..] == a';
      assert x in multiset(b);
      var j :| 0 <= j < |b| && b[j] == x;
      var b' := b[..j] + b[j + 1..];
      MultisetRemoveAt(b, j);
      RemoveKeepsBound(b, j, |vals|, b');
      SumAtRemove(vals, b, j);
      SumAtPermutation(vals, a', b');
    }
  }

  // ---------------------------------------------------------------------
  // Columns of the item list (`collect($items)->sum(...)`).

  datatype Field = PriceField | DiscountField | ServiceFeeField | CommissionFeeField | TotalField

  function FieldOf(it: Item, f: Field): real
  {
    match f
    case PriceField => it.price
    case DiscountField => it.discount
    case ServiceFeeField => it.serviceFee
    case CommissionFeeField => it.commissionFee
    case TotalField => it.totalPrice
  }

  function Column(items: seq<Item>, f: Field): (c: seq<real>)
    ensures |c| == |items|
    ensures forall i :: 0 <= i < |items| ==> c[i] == FieldOf(items[i], f)
  {
    seq(|items|, i requires 0 <= i < |items| => FieldOf(items[i], f))
  }

  // ---------------------------------------------------------------------
  // The settlement loop.

  /** The loop's state: the items as rewritten so far, the four sums, the
      status, the aggregate total and the current gift share. */
  datatype State = State(
    items: seq<Item>,
    price: real, discount: real, serviceFee: real, commissionFee: real,
    status: bool, totalPrice: real, giftPrice: real)

  function Acc(s: State, f: Field): real
  {
    match f
    case PriceField => s.price
    case DiscountField => s.discount
    case ServiceFeeField => s.serviceFee
    case CommissionFeeField => s.commissionFee
    case TotalField => s.totalPrice
  }

  /** One iteration for `key`. `snap` is the item list as it was before the
      loop (what the loop variable `$item` reads); `s.items` is the list
      being rewritten (what `$items[$key]` reads). `giftCartPrice` is the
      gift card's converted amount. */
  function Visit(giftCartPrice: real, snap: seq<Item>, s: State, key: nat): (t: State)
    ensures |t.items| == |s.items|
  {
    if key >= |snap| || key >= |s.items| then s
    else
      var item := snap[key];
      var acc := s.(price := s.price + item.price,
                    discount := s.discount + item.discount,
                    serviceFee := s.serviceFee + item.serviceFee,
                    commissionFee := s.commissionFee + item.commissionFee,
                    status := s.status && item.errors == []);
      if s.items[key].totalPrice == 0.0 then acc
      else if giftCartPrice >= acc.totalPrice then
        acc.(totalPrice := 0.0, items := acc.items[key := acc.items[key].(totalPrice := 0.0)])
      else if acc.giftPrice > 0.0 then
        var over := acc.giftPrice > item.totalPrice;
        var decrement := if over then item.totalPrice else acc.giftPrice;
        var carry := if over then acc.giftPrice + (acc.giftPrice - item.totalPrice) else acc.giftPrice;
        acc.(giftPrice := carry,
             items := acc.items[key := acc.items[key].(giftCartPrice := Some(decrement),
                                                       totalPrice := item.totalPrice - decrement)])
      else acc
  }

  /** The state after visiting the first `i` keys of `order`. */
  function SettleUpTo(giftCartPrice: real, snap: seq<Item>, s0: State, order: seq<nat>, i: nat): (s: State)
    requires i <= |order|
    ensures |s.items| == |s0.items|
  {
    if i == 0 then s0 else Visit(giftCartPrice, snap, SettleUpTo(giftCartPrice, snap, s0, order, i - 1), order[i - 1])
  }

  /** Two items that differ at most in their total and their gift part. */
  predicate SameButCredit(a: Item, b: Item)
  {
    a.(totalPrice := 0.0, giftCartPrice := None) == b.(totalPrice := 0.0, giftCartPrice := None)
  }

  /** Settlement keeps every item under its own key with its slot, its
      prices, its fees and its errors; only the total and the gift part
      may change. */
  lemma {:induction false} SettleKeepsItems(gc: real, snap: seq<Item>, s0: State, order: seq<nat>, i: nat)
    requires i <= |order|
    ensures var s := SettleUpTo(gc, snap, s0, order, i);
            |s.items| == |s0.items| &&
            forall k :: 0 <= k < |s.items| ==> SameButCredit(s.items[k], s0.items[k])
  {
    if i > 0 {
      SettleKeepsItems(gc, snap, s0, order, i - 1);
    }
  }

  /** The status stays true exactly while no visited item carries errors. */
  lemma {:induction false} SettleStatus(gc: real, snap: seq<Item>, s0: State, order: seq<nat>, i: nat)
    requires i <= |order| && |snap| == |s0.items|
    requires forall j :: 0 <= j < |order| ==> order[j] < |snap|
    ensures SettleUpTo(gc, snap, s0, order, i).status <==>
              s0.status && forall j :: 0 <= j < i ==> snap[order[j]].errors == []
  {
    if i > 0 {
      SettleStatus(gc, snap, s0, order, i - 1);
      SettleKeepsItems(gc, snap, s0, order, i - 1);
    }
  }

  /** Each of the four sums adds up the visited items' field. */
  lemma {:induction false} SettleSums(gc: real, snap: seq<Item>, s0: State, order: seq<nat>, i: nat, f: Field)
    requires i <= |order| && |snap| == |s0.items| && f != TotalField
    requires forall j :: 0 <= j < |order| ==> order[j] < |snap|
    ensures Acc(SettleUpTo(gc, snap, s0, order, i), f) == Acc(s0, f) + SumAt(Column(snap, f), order[..i])
  {
    if i > 0 {
      SettleSums(gc, snap, s0, order, i - 1, f);
      SettleKeepsItems(gc, snap, s0, order, i - 1);
      VisitAdds(gc, snap, SettleUpTo(gc, snap, s0, order, i - 1), order[i - 1], f);
      assert order[..i][..i - 1] == order[..i - 1];
    }
  }

  /** A visit adds the visited item's field to its sum. */
  lemma VisitAdds(gc: real, snap: seq<Item>, s: State, key: nat, f: Field)
    requires key < |snap| == |s.items| && f != TotalField
    ensures Acc(Visit(gc, snap, s, key), f) == Acc(s, f) + Column(snap, f)[key]
  {
  }

  /** The aggregate total is either what it started as or 0: partial gift
      deductions never lower it. */
  lemma {:induction false} SettleAggregate(gc: real, snap: seq<Item>, s0: State, order: seq<nat>, i: nat)
    requires i <= |order|
    ensures var t := SettleUpTo(gc, snap, s0, order, i).totalPrice;
            t == s0.totalPrice || t == 0.0
  {
    if i > 0 {
      SettleAggregate(gc, snap, s0, order, i - 1);
    }
  }

  /** A gift card worth less than the starting aggregate never covers it:
      the aggregate stays what it started as. */
  lemma {:induction false} SettleBelowCoverage(gc: real, snap: seq<Item>, s0: State, order: seq<nat>, i: nat)
    requires i <= |order| && gc < s0.totalPrice
    ensures SettleUpTo(gc, snap, s0, order, i).totalPrice == s0.totalPrice
  {
    if i > 0 {
      SettleBelowCoverage(gc, snap, s0, order, i - 1);
    }
  }

  /** Nothing is covered yet after `i` visits: the aggregate and the items
      are as they started, and every key visited held a total of 0. */
  predicate Untouched(s0: State, s: State, order: seq<nat>, i: nat)
    requires i <= |order|
  {
    s.totalPrice == s0.totalPrice && s.items == s0.items &&
    forall j :: 0 <= j < i ==> order[j] < |s0.items| && s0.items[order[j]].totalPrice == 0.0
  }

  /** With a gift card worth at least the starting aggregate, the first key
      whose total is not 0 zeroes the aggregate, which then stays 0; until
      that key nothing changes. */
  lemma {:induction false} CoverReachesZero(gc: real, snap: seq<Item>, s0: State, order: seq<nat>, i: nat)
    requires i <= |order| && |s0.items| == |snap| && gc >= s0.totalPrice
    requires forall j :: 0 <= j < |order| ==> order[j] < |snap|
    ensures var s := SettleUpTo(gc, snap, s0, order, i);
            s.totalPrice == 0.0 || Untouched(s0, s, order, i)
  {
    if i > 0 {
      CoverReachesZero(gc, snap, s0, order, i - 1);
      var prev := SettleUpTo(gc, snap, s0, order, i - 1);
      var s := Visit(gc, snap, prev, order[i - 1]);
      assert s == SettleUpTo(gc, snap, s0, order, i);
      if s.totalPrice != 0.0 {
        assert Untouched(s0, prev, order, i - 1);
        assert s.items == s0.items;
      }
    }
  }

  /** Settling every key: the aggregate ends at 0 when the gift card is worth
      at least the sum of the totals, and at that sum otherwise. */
  lemma SettleAllAggregate(gc: real, snap: seq<Item>, s0: State, order: seq<nat>)
    requires s0.items == snap && s0.totalPrice == Sum(Column(snap, TotalField))
    requires forall j :: 0 <= j < |order| ==> order[j] < |snap|
    requires forall k: nat :: k < |snap| ==> k in order
    ensures SettleUpTo(gc, snap, s0, order, |order|).totalPrice ==
            if gc >= s0.totalPrice then 0.0 else s0.totalPrice
  {
    var s := SettleUpTo(gc, snap, s0, order, |order|);
    if gc < s0.totalPrice {
      SettleBelowCoverage(gc, snap, s0, order, |order|);
    } else {
      CoverReachesZero(gc, snap, s0, order, |order|);
      if s.totalPrice != 0.0 {
        var totals := Column(snap, TotalField);
        forall k | 0 <= k < |totals|
          ensures totals[k] == 0.0
        {
          assert k in order;
        }
        NonZeroSumHasNonZeroTerm(totals);
        assert false;
      }
    }
  }

  /** An item whose total was 0 before settlement is left exactly as it
      was: it is skipped, gift and all. */
  lemma {:induction false} SettleKeepsZero(gc: real, snap: seq<Item>, s0: State, order: seq<nat>, i: nat)
    requires i <= |order| && s0.items == snap
    ensures forall k :: 0 <= k < |snap| && snap[k].totalPrice == 0.0 ==>
              SettleUpTo(gc, snap, s0, order, i).items[k] == snap[k]
  {
    if i > 0 {
      SettleKeepsZero(gc, snap, s0, order, i - 1);
    }
  }

  /** An item whose snapshot total is at least 0 keeps a total between 0
      and its snapshot total, whatever gift parts it is given. */
  lemma {:induction false} SettleItemBounds(gc: real, snap: seq<Item>, s0: State, order: seq<nat>, i: nat, k: nat)
    requires i <= |order| && s0.items == snap && k < |snap|
    requires snap[k].totalPrice >= 0.0
    ensures 0.0 <= SettleUpTo(gc, snap, s0, order, i).items[k].totalPrice <= snap[k].totalPrice
  {
    if i > 0 {
      SettleItemBounds(gc, snap, s0, order, i - 1, k);
    }
  }

  /** A sum that is not 0 has a term that is not 0. */
  lemma {:induction false} NonZeroSumHasNonZeroTerm(xs: seq<real>)
    requires Sum(xs) != 0.0
    ensures exists i :: 0 <= i < |xs| && xs[i] != 0.0
  {
    if xs[|xs| - 1] == 0.0 {
      NonZeroSumHasNonZeroTerm(xs[..|xs| - 1]);
      var i :| 0 <= i < |xs| - 1 && xs[..|xs| - 1][i] != 0.0;
      assert xs[i] != 0.0;
    }
  }

  /** The example of two items of 100 and a card worth 150 (a share of 75
      each): both items keep 25, yet the aggregate total is still 200,
      because partial deductions are not taken off it. */
  lemma PartialGiftKeepsAggregate(a: Item, b: Item)
    requires a.totalPrice == 100.0 && b.totalPrice == 100.0
    ensures var snap := [a, b];
            var s := SettleUpTo(150.0, snap, State(snap, 0.0, 0.0, 0.0, 0.0, true, 200.0, 75.0), [0, 1], 2);
            s.items[0].totalPrice == 25.0 && s.items[1].totalPrice == 25.0 &&
            s.items[0].giftCartPrice == Some(75.0) && s.items[1].giftCartPrice == Some(75.0) &&
            s.totalPrice == 200.0
  {
    var snap := [a, b];
    var s0 := State(snap, 0.0, 0.0, 0.0, 0.0, true, 200.0, 75.0);
    assert SettleUpTo(150.0, snap, s0, [0, 1], 0) == s0;
    var s1 := SettleUpTo(150.0, snap, s0, [0, 1], 1);
    assert s1 == Visit(150.0, snap, s0, 0);
    assert s1.items[0].totalPrice == 25.0 && s1.giftPrice == 75.0 && s1.totalPrice == 200.0;
  }

  /** The carry `giftPrice += giftPrice - total` is never taken back: with
      items of 10, 100 and 100 and a card worth 150 (a share of 50), the
      first item uses 10 and lifts the share to 90, and both later items
      then receive 90, so 190 is handed out of a card worth 150. */
  lemma GiftCarryOverspends(a: Item, b: Item, c: Item)
    requires a.totalPrice == 10.0 && b.totalPrice == 100.0 && c.totalPrice == 100.0
    ensures var snap := [a, b, c];
            var s := SettleUpTo(150.0, snap, State(snap, 0.0, 0.0, 0.0, 0.0, true, 210.0, 50.0), [0, 1, 2], 3);
            s.items[0].giftCartPrice == Some(10.0) && s.items[1].giftCartPrice == Some(90.0) &&
            s.items[2].giftCartPrice == Some(90.0) &&
            s.items[0].totalPrice == 0.0 && s.items[1].totalPrice == 10.0 && s.items[2].totalPrice == 10.0
  {
    var snap := [a, b, c];
    var s0 := State(snap, 0.0, 0.0, 0.0, 0.0, true, 210.0, 50.0);
    assert SettleUpTo(150.0, snap, s0, [0, 1, 2], 0) == s0;
    var s1 := SettleUpTo(150.0, snap, s0, [0, 1, 2], 1);
    assert s1 == Visit(150.0, snap, s0, 0);
    assert s1.giftPrice == 90.0 && s1.totalPrice == 210.0 && s1.items[1] == b && s1.items[2] == c;
    var s2 := SettleUpTo(150.0, snap, s0, [0, 1, 2], 2);
    assert s2 == Visit(150.0, snap, s1, 1);
    assert s2.giftPrice == 90.0 && s2.totalPrice == 210.0 && s2.items[2] == c;
  }

  /** One visit while a gift amount, not negative, covers the running
      aggregate: the visited item ends at 0, no other item changes, and the
      aggregate drops to 0 if the item was not already at 0 (a zero item is
      skipped). */
  lemma FullCoverageVisit(gc: real, snap: seq<Item>, s: State, key: nat)
    requires key < |snap| == |s.items|
    requires gc >= 0.0 && gc >= s.totalPrice
    ensures var t := Visit(gc, snap, s, key);
            gc >= t.totalPrice && t.items[key].totalPrice == 0.0 &&
            (forall k :: 0 <= k < |s.items| && k != key ==> t.items[k] == s.items[k]) &&
            (s.items[key].totalPrice != 0.0 || s.totalPrice == 0.0 ==> t.totalPrice == 0.0)
  {
  }

  /** Once the gift amount reaches the running aggregate before visit `i`
      (and is not negative), the items visited from then on end with a total
      of 0, the items not yet visited are untouched, and if one of the
      visited ones had a non-zero total the aggregate is 0. */
  lemma {:induction false} FullCoverageSticks(gc: real, snap: seq<Item>, s0: State, order: seq<nat>, i: nat, m: nat)
    requires i <= m <= |order| && |s0.items| == |snap| && Distinct(order)
    requires forall j :: 0 <= j < |order| ==> order[j] < |snap|
    requires gc >= 0.0 && gc >= SettleUpTo(gc, snap, s0, order, i).totalPrice
    ensures CoveredFrom(gc, order, SettleUpTo(gc, snap, s0, order, i), SettleUpTo(gc, snap, s0, order, m), i, m)
    decreases m
  {
    if m > i {
      FullCoverageSticks(gc, snap, s0, order, i, m - 1);
      var prev := SettleUpTo(gc, snap, s0, order, m - 1);
      CoverageStep(gc, snap, order, SettleUpTo(gc, snap, s0, order, i), prev, i, m);
    }
  }

  /** Visits `i` to `m - 1` of `order` took the state from `si` to `s`
      under full coverage: they are at 0, the rest is as in `si`, and the
      aggregate is 0 if one of them was not. */
  predicate CoveredFrom(gc: real, order: seq<nat>, si: State, s: State, i: nat, m: nat)
    requires i <= m <= |order| && |si.items| == |s.items|
    requires forall j :: 0 <= j < |order| ==> order[j] < |si.items|
  {
    gc >= s.totalPrice &&
    (forall j :: i <= j < m ==> s.items[order[j]].totalPrice == 0.0) &&
    (forall j :: m <= j < |order| ==> s.items[order[j]] == si.items[order[j]]) &&
    ((exists j :: i <= j < m && si.items[order[j]].totalPrice != 0.0) ==> s.totalPrice == 0.0)
  }

  /** Visit `m - 1` keeps `CoveredFrom`. */
  lemma CoverageStep(gc: real, snap: seq<Item>, order: seq<nat>, si: State, prev: State, i: nat, m: nat)
    requires i < m <= |order| && |si.items| == |snap| == |prev.items| && Distinct(order)
    requires forall j :: 0 <= j < |order| ==> order[j] < |snap|
    requires gc >= 0.0 && CoveredFrom(gc, order, si, prev, i, m - 1)
    ensures CoveredFrom(gc, order, si, Visit(gc, snap, prev, order[m - 1]), i, m)
  {
    var key := order[m - 1];
    FullCoverageVisit(gc, snap, prev, key);
    var s := Visit(gc, snap, prev, key);
    forall j | i <= j < m
      ensures s.items[order[j]].totalPrice == 0.0
    {
      if j < m - 1 { assert order[j] != key; }
    }
    forall j | m <= j < |order|
      ensures s.items[order[j]] == si.items[order[j]]
    {
      assert order[j] != key;
    }
    if exists j :: i <= j < m && si.items[order[j]].totalPrice != 0.0 {
      var j :| i <= j < m && si.items[order[j]].totalPrice != 0.0;
      if j == m - 1 {
        assert prev.items[key] == si.items[key];
      }
    }
  }

  // ---------------------------------------------------------------------
  // The whole settlement, over an order that holds every key once.

  /** Two items alike but for credit share their slot, prices, fees,
      membership and errors. */
  lemma SameButCreditFields(a: Item, b: Item)
    requires SameButCredit(a, b)
    ensures a.serviceMasterId == b.serviceMasterId && a.start == b.start && a.end == b.end
    ensures a.price == b.price && a.discount == b.discount && a.serviceFee == b.serviceFee
    ensures a.commissionFee == b.commissionFee && a.extraPrice == b.extraPrice
    ensures a.userMemberShipId == b.userMemberShipId && a.errors == b.errors
  {
    var x := a.(totalPrice := 0.0, giftCartPrice := None);
    var y := b.(totalPrice := 0.0, giftCartPrice := None);
    assert x == y;
  }

  /** After settling every key, the status is true exactly when no item
      carries an error. */
  lemma SettleAllStatus(gc: real, snap: seq<Item>, s0: State, order: seq<nat>)
    requires s0.items == snap && s0.status && multiset(order) == multiset(Range(|snap|))
    ensures var s := SettleUpTo(gc, snap, s0, order, |order|);
            s.status <==> forall k :: 0 <= k < |s.items| ==> s.items[k].errors == []
  {
    RangeKeys(order, |snap|);
    SettleStatus(gc, snap, s0, order, |order|);
    SettleKeepsItems(gc, snap, s0, order, |order|);
    var s := SettleUpTo(gc, snap, s0, order, |order|);
    if s.status {
      forall k | 0 <= k < |s.items|
        ensures s.items[k].errors == []
      {
        assert k in order;
        var j :| 0 <= j < |order| && order[j] == k;
        SameButCreditFields(s.items[k], snap[k]);
      }
    } else {
      var j :| 0 <= j < |order| && snap[order[j]].errors != [];
      SameButCreditFields(s.items[order[j]], snap[order[j]]);
    }
  }

  /** Items alike but for credit have the same column for every field but
      the total. */
  lemma ColumnIgnoresCredit(a: seq<Item>, b: seq<Item>, f: Field)
    requires |a| == |b| && f != TotalField
    requires forall k :: 0 <= k < |a| ==> SameButCredit(a[k], b[k])
    ensures Column(a, f) == Column(b, f)
  {
    forall k | 0 <= k < |a|
      ensures FieldOf(a[k], f) == FieldOf(b[k], f)
    {
      SameButCreditFields(a[k], b[k]);
    }
  }

  /** After settling every key, each of the four sums is the sum of that
      field over the settled items, whatever the order. */
  lemma SettleAllSums(gc: real, snap: seq<Item>, s0: State, order: seq<nat>, f: Field)
    requires f != TotalField && s0.items == snap && Acc(s0, f) == 0.0
    requires multiset(order) == multiset(Range(|snap|))
    ensures var s := SettleUpTo(gc, snap, s0, order, |order|);
            Acc(s, f) == Sum(Column(s.items, f))
  {
    RangeKeys(order, |snap|);
    var s := SettleUpTo(gc, snap, s0, order, |order|);
    var col := Column(snap, f);
    SettleSums(gc, snap, s0, order, |order|, f);
    assert order[..|order|] == order;
    SumAtPermutation(col, order, Range(|snap|));
    SumAtRange(col, |snap|);
    assert col[..|snap|] == col;
    SettleKeepsItems(gc, snap, s0, order, |order|);
    ColumnIgnoresCredit(s.items, snap, f);
  }

  /** A gift amount, not negative, that reaches the aggregate of all the
      items settles every item and the aggregate to 0. */
  lemma SettleAllCovered(gc: real, snap: seq<Item>, s0: State, order: seq<nat>)
    requires s0.items == snap && s0.totalPrice == Sum(Column(snap, TotalField))
    requires Distinct(order) && multiset(order) == multiset(Range(|snap|))
    requires gc >= 0.0 && gc >= s0.totalPrice
    ensures var s := SettleUpTo(gc, snap, s0, order, |order|);
            s.totalPrice == 0.0 && forall k :: 0 <= k < |s.items| ==> s.items[k].totalPrice == 0.0
  {
    RangeKeys(order, |snap|);
    assert SettleUpTo(gc, snap, s0, order, 0) == s0;
    FullCoverageSticks(gc, snap, s0, order, 0, |order|);
    SettleAggregate(gc, snap, s0, order, |order|);
    var s := SettleUpTo(gc, snap, s0, order, |order|);
    forall k | 0 <= k < |s.items|
      ensures s.items[k].totalPrice == 0.0
    {
      assert k in order;
      var j :| 0 <= j < |order| && order[j] == k;
    }
    var totals := Column(snap, TotalField);
    if Sum(totals) != 0.0 {
      NonZeroSumHasNonZeroTerm(totals);
      var k :| 0 <= k < |totals| && totals[k] != 0.0;
      assert k in order;
      var j :| 0 <= j < |order| && order[j] == k;
    }
  }
}

=== FILE: Types.dfy ===
/** Values shared by the booking quote calculator: catalog rows, requested
    items, price tiers and their smart rules, memberships, the per-day
    availability of a master, and the quote items that are produced.

    Times are whole minutes on one absolute scale; the calendar day of a
    time is `DayOf` and its time of day (what the source formats as `H:i`)
    is `MinuteOfDay`. Money is an exact `real`. */
module BookingTypes {

  datatype Option<T> = None | Some(value: T)

  const MinutesPerDay: int := 1440

  /** The `H:i` part of a time, as minutes since midnight. Zero-padded `H:i`
      strings compare exactly as these numbers do. */
  function MinuteOfDay(t: int): (m: int)
    ensures 0 <= m < MinutesPerDay
    ensures (t - m) % MinutesPerDay == 0
  {
    t % MinutesPerDay
  }

  /** The `Y-m-d` part of a time, as a day index. */
  function DayOf(t: int): (d: int)
    ensures d * MinutesPerDay <= t < (d + 1) * MinutesPerDay
  {
    t / MinutesPerDay
  }

  function Max(a: real, b: real): (m: real)
    ensures m >= a && m >= b
    ensures m == a || m == b
  {
    if a >= b then a else b
  }

  /** Sum of a list of amounts, added left to right. */
  function Sum(xs: seq<real>): (s: real)
    ensures (forall i :: 0 <= i < |xs| ==> xs[i] >= 0.0) ==> s >= 0.0
  {
    if xs == [] then 0.0 else Sum(xs[..|xs| - 1]) + xs[|xs| - 1]
  }

  /** `ServiceMasterPrice::PERCENT` or any other value type (used as is). */
  datatype ValueType = Percent | Fixed

  /** `ServiceMasterPrice::SMART_TYPE_UP` or any other type (subtracts). */
  datatype SmartType = Up | Down

  /** One time-of-day rule of a price tier: it applies to a slot whose
      start and end times of day both lie in [from, to]. */
  datatype SmartRule = SmartRule(from: int, to: int, value: real, valueType: ValueType, smartType: SmartType)

  /** A `ServiceMasterPrice` row: the tier price and its ordered rules. */
  datatype PriceTier = PriceTier(price: real, smart: seq<SmartRule>)

  /** Whether the request item names a `price_id`, and if so the tier row
      that the lookup found (None when it found nothing). */
  datatype PriceChoice = NoPriceId | PriceId(tier: Option<PriceTier>)

  /** A `ServiceMaster` catalog row. */
  datatype ServiceMaster = ServiceMaster(
    id: int, masterId: int, serviceId: int,
    interval: int, pause: int,
    price: real, discount: real, commissionFee: real, totalPrice: real)

  /** One entry of the request's `data` list: its price choice and the
      prices of the extras the extras lookup found for it. */
  datatype ItemRequest = ItemRequest(priceChoice: PriceChoice, extras: seq<real>)

  datatype Sessions = Limited | Unlimited

  /** A `UserMemberShip` row with the ids of the services it covers. */
  datatype UserMemberShip = UserMemberShip(id: int, sessions: Sessions, remainder: int, services: set<int>)

  /** What `MasterRepository::times` reports for one calendar day. The
      disabled times are times of day. */
  datatype DayTimes = DayTimes(closed: bool, disabledTimes: seq<int>)

  /** The result of `MasterRepository::times` for one item: a map from day
      index to that day's report, or an exception. */
  datatype Times = Times(days: map<int, DayTimes>) | TimesThrew

  datatype ItemError = MasterClosed | AlreadyBooked | Unexpected

  /** One computed booking item (one key of `$items`). */
  datatype Item = Item(
    serviceMasterId: int,
    start: int, end: int,
    price: real, discount: real, serviceFee: real, commissionFee: real,
    extraPrice: real, totalPrice: real,
    giftCartPrice: Option<real>,
    userMemberShipId: Option<int>,
    errors: seq<ItemError>)
}
